=== FILE: README.md ===
# Project-management access model in Dafny

This project models the core of a Django project-management application: its
role-based access model and the request handlers that change its state. It
also proves properties of that model.

- **State.** The application's tables are one immutable `Store`:
  - users, keyed by username;
  - projects, keyed by id, each with a name, a description and an `owner` foreign key;
  - project memberships `(user, project, role)`, where the role is an open string;
  - comments.

  `Valid` states what the database guarantees: every foreign key resolves, each
  `(user, project)` pair has at most one membership (`unique_together`), ids
  are fresh, and comments are kept in creation order.
- **Permission classes.** `IsProjectOwnerOrReadOnly` and `CanCommentOnProject`
  are predicates over the membership table (module `Permissions`).
- **Handlers.** Every state-changing HTMX handler of the projects app, and every sign-up,
  login and logout view of the accounts app, is a pure transition. It maps a
  store and a request (HTTP verb, session user, form fields) to a status code
  and a new store. The account handlers also return the session user
  afterwards. See modules `ProjectViews` and `AccountViews`.
- **Store operations.** Inserts, the `on_delete=CASCADE` deletes, and the
  Python string semantics the handlers rely on (`str.strip()`, truthiness,
  `int()` of a primary key) live in `Models` and `PyStr`.
- **Scenarios.** Module `Scenarios` replays the fixtures of the projects test
  suite against the model. It shows where the code and its tests disagree.

Modelling choices:
- `login_required` gives 302 and `require_http_methods` gives 405.
- An uncaught database error (a uniqueness or foreign-key violation, or an
  unparsable id) gives 500.
- A session whose user row no longer exists counts as anonymous.
- `.first()` on an unordered queryset is the row of least primary key. So
  memberships and comments are sequences in primary-key order, and the
  project lookup takes the least id.
- Auto-increment keys and `auto_now_add` stamps are counters in the store.
- Requests run in autocommit mode. When the membership insert of
  `project_create` fails, the project row inserted just before it stays.
- Authentication is a credential relation: the stored password equals the
  posted one.
- The database compares strings case-sensitively, as SQLite and PostgreSQL
  do. So a stored role `'Owner'` does not match a lookup for `'owner'`. Under
  MySQL's default case-insensitive collation the mis-cased scenarios would
  behave differently.
- A URL named `'login'` exists somewhere in the URL configuration, so
  `redirect('login')` in `user_logout` resolves and gives 302.

## Model

| member | source | states |
|---|---|---|
| `Permissions.IsProjectOwnerOrReadOnly` | project_management/apps/projects/permissions.py:12-39 | The permission class allows nothing without a membership of the pair. A non-safe verb is allowed only with an `'owner'` or `'editor'` row |
| `Permissions.CanCommentOnProject` | project_management/apps/projects/permissions.py:46-54 | Commenting is allowed only with an `'owner'` or `'editor'` row on the target's project |
| `Permissions.DecisionIsRankComparison` | project_management/apps/projects/permissions.py:12-39 | For every verb, the decision is a tier comparison. The first membership's role has a rank (owner 3, editor 2, any other string 1), each verb needs one (safe 1, PUT/PATCH 2, others 3), and the verb is allowed iff the role's rank is at least the verb's |
| `Permissions.SafeMethodIffMember` | project_management/apps/projects/permissions.py:14-19 | GET, HEAD and OPTIONS are allowed exactly when some membership of the pair exists, whatever its role |
| `Permissions.NonMemberDenied` | project_management/apps/projects/permissions.py:21-28 | Without a membership, every non-safe verb is denied |
| `Permissions.OwnerAllowsAll` | project_management/apps/projects/permissions.py:30-31 | An `'owner'` membership allows every verb |
| `Permissions.EditorAllowsExactlyUpdates` | project_management/apps/projects/permissions.py:33-37 | An `'editor'` membership allows exactly the safe verbs plus PUT and PATCH; POST and DELETE are denied |
| `Permissions.OtherRolesReadOnly` | project_management/apps/projects/permissions.py:30-39 | Any other role string, `'reader'` and mis-cased `'Owner'` included, is allowed the safe verbs only |
| `Permissions.PrivilegeMonotone` | project_management/apps/projects/permissions.py:5-39 | What a lower-ranked role may do on a project, a higher-ranked role may do too; reader < editor < owner |
| `Permissions.CanCommentIffWriter` | project_management/apps/projects/permissions.py:46-54 | Commenting is allowed iff the target's project has an owner or editor membership of the user; for a comment object, the comment's project is the one checked |
| `Permissions.CommentIffPut` | project_management/apps/projects/permissions.py:36-54 | The roles that may comment are exactly the roles that may PUT |
| `Models.RoleOn` | project_management/apps/projects/permissions.py:23-25 | The `.first()` membership lookup finds nothing iff the pair has no membership, and otherwise a role stored for the pair. Under unique pairs, that role is the role of every row of the pair |
| `Models.UniquePairsSameRow` | project_management/apps/projects/models.py:27-28 | Under `unique_together`, two rows with the same (user, project) are the same row |
| `Models.InsertMembership` | project_management/apps/projects/models.py:23-28 | The insert succeeds iff the pair is new and both foreign keys resolve. On success exactly that row is appended and the store stays valid; otherwise nothing is written |
| `Models.OnePairAtMostOneRow` | project_management/apps/projects/models.py:27-28 | Under unique pairs, a filter on one (user, project) pair keeps at most one row |
| `Models.InsertUser` | project_management/apps/accounts/views.py:44-48 | Creating a user succeeds iff the username is free. It adds exactly that account under a fresh id and leaves every other table unchanged, and the store stays valid |
| `Models.InsertProject` | project_management/apps/projects/views.py:165-169 | A new project goes under the next id, which no project of a valid store uses. The store stays valid when the owner exists |
| `Models.SaveProject` | project_management/apps/projects/views.py:242-244 | Saving changes only that project's name and description, and the store stays valid |
| `Models.AddComment` | project_management/apps/projects/views.py:358 | Exactly one comment is appended, stamped later than every earlier comment. The store stays valid when the project and the user exist |
| `Models.DeleteProject` | project_management/apps/projects/models.py:24-34 | Deleting a project removes it, every membership of it and every comment on it, and nothing else. The store stays valid |
| `Models.DeleteUser` | project_management/apps/projects/models.py:10-35 | Deleting a user removes the account, the projects it owns (with their memberships and comments), its own memberships and its own comments, and nothing else. The store stays valid |
| `PyStr.StripEmptyIffAllSpace` | project_management/apps/projects/views.py:340-348 | `not text.strip()` holds exactly for text made only of whitespace |
| `PyStr.StripIsTrimmedSlice` | project_management/apps/projects/views.py:154 | The stripped description is a contiguous piece of the input, with only whitespace cut from either end |
| `PyStr.Strip` | project_management/apps/projects/views.py:154 | `.strip()` never lengthens the text, and the result neither starts nor ends with whitespace (also lines 233 and 340) |
| `PyStr.ParseId` | project_management/apps/projects/views.py:287-293 | A posted user id converts to a key exactly when it is a non-empty string of decimal digits |
| `PyStr.ParseShowId` | project_management/apps/projects/views.py:287-293 | An id written into the form in decimal is read back unchanged |
| `ProjectViews.CommentsNewestFirst` | project_management/apps/projects/views.py:122-124 | The listing holds exactly the project's comments, with strictly decreasing creation stamps |
| `ProjectViews.ProjectIndex` | project_management/apps/projects/views.py:100-132 | Anonymous requests are redirected. Otherwise the page shows the visible projects and opens on one of them with that project's comments, or on none |
| `ProjectViews.IndexShowsOwnedAndMemberProjects` | project_management/apps/projects/views.py:109-123 | A project is listed iff the user owns it through the foreign key or holds an owner, editor or reader membership on it. The first project is the least listed id, and there is one iff the list is non-empty |
| `ProjectViews.VisibleProjects` | project_management/apps/projects/views.py:109-113 | The index queryset holds only existing projects, holds every project the user owns through the foreign key, and every project on which the user has an owner, editor or reader membership |
| `ProjectViews.IndexAgreesWithReadPermission` | project_management/apps/projects/views.py:109-113 | While all stored roles are declared choices, a project is listed iff the user owns it or `IsProjectOwnerOrReadOnly` allows a GET on it |
| `ProjectViews.ProjectCreate` | project_management/apps/projects/views.py:145-172 | Anonymous gives 302 and a non-POST gives 405, with no change. A missing or empty name gives 400 and adds nothing. Otherwise the request runs the creation body; that happens iff the status is 200 or 500. The store stays valid |
| `ProjectViews.CreateAs` | project_management/apps/projects/views.py:164-172 | The new project is always stored under the next id. On 200, one owner membership is added on the least-id project of that name and owner; on 500, no membership is added |
| `ProjectViews.CreateLookup` | project_management/apps/projects/views.py:170 | The lookup after the insert returns the least id among the user's projects of that name, and it is never above the new id |
| `ProjectViews.CreateAsFreshName` | project_management/apps/projects/views.py:164-172 | With a name the user has not used, the creation returns 200 and adds exactly the `(user, new project, 'owner')` membership |
| `ProjectViews.CreateWithFreshName` | project_management/apps/projects/views.py:145-172 | In a valid store, a fresh name gives 200. It adds one project owned by the requester under a fresh id, and one owner membership on that project |
| `ProjectViews.CreateWithoutDescription` | project_management/apps/projects/views.py:153-172 | A request without a description succeeds and stores an empty description |
| `ProjectViews.CreateAsReusedName` | project_management/apps/projects/views.py:165-172 | With a reused name, no membership of anyone names the new project. When the user is a member of every same-named project, the status is 500 |
| `ProjectViews.CreateAsReusedNameSilent` | project_management/apps/projects/views.py:165-172 | When the oldest same-named project is not yet the user's membership, the create answers 200 and the `'owner'` row is appended on that older project, not on the new one; the 200 arises exactly when the user exists and has no row on that older project |
| `ProjectViews.CreateWithReusedName` | project_management/apps/projects/views.py:165-172 | In a valid store, a reused name leaves the new project stored, owned by the requester, and with no membership of anyone on it. It gives 500 when the requester is a member of every project of that name |
| `ProjectViews.ProjectCreateFixed` | project_management/apps/projects/views.py:164-172 | The corrected creation fails with no change, or adds the project and the owner membership on that same new id. The store stays valid |
| `ProjectViews.CreateFixedAs` | project_management/apps/projects/views.py:164-172 | The corrected body succeeds iff the user exists and has no membership on the new id, and then adds exactly the project and its owner row |
| `ProjectViews.FixedCreateAlwaysGrantsOwner` | project_management/apps/projects/views.py:164-172 | In every valid store, the corrected creation succeeds for any non-empty name, reused or not |
| `ProjectViews.ProjectDelete` | project_management/apps/projects/views.py:186-203 | Every authenticated POST gives 200. The store changes only when the requester is the project's foreign-key owner, and then the change is the cascading delete. The store stays valid |
| `ProjectViews.DeleteOnlyByForeignKeyOwner` | project_management/apps/projects/views.py:192-203 | The project is gone afterwards iff its foreign-key owner asked, and then so are its memberships and comments. A membership role does not count |
| `ProjectViews.EditGrantsAtMostOne` | project_management/apps/projects/views.py:222 | Under unique pairs, the join that `project_update` looks up has at most one row. It has one iff the user holds an owner or editor membership on an existing project |
| `ProjectViews.EditGrants` | project_management/apps/projects/views.py:222 | The rows `get_object_or_404` joins on are exactly the user's owner or editor memberships on the project, and there are none when the project does not exist |
| `ProjectViews.ProjectUpdate` | project_management/apps/projects/views.py:205-248 | Rejected requests change nothing: 302, 405, and 400 for a POST with an empty name. A GET or POST gives 404 exactly when the owner/editor join finds no row, and 500 exactly when it finds two or more. With exactly one row, a GET or a POST with a name gives 200. An accepted GET changes nothing. An accepted POST sets only that project's name and stripped description |
| `ProjectViews.UpdateGate` | project_management/apps/projects/views.py:222 | In a valid store, an update never gives 500. It gives 404, with no change, exactly when the user has no owner or editor membership on the project. An owner's or editor's GET, or POST with a name, gives 200 |
| `ProjectViews.ProjectAddMember` | project_management/apps/projects/views.py:260-296 | A GET changes nothing and answers 200 to the foreign-key owner, 404 to anyone else. A POST gives 200 exactly when every check passes: the requester is the foreign-key owner with an `'owner'` row, both fields are filled, and the target id parses, exists and is not a member yet. Then exactly `(target, project, posted role)` is appended. Every other outcome leaves the store unchanged |
| `ProjectViews.AddMemberCheckOrder` | project_management/apps/projects/views.py:263-288 | The checks apply in order: not the foreign-key owner gives 404, a missing field 400, no `'owner'` row 403. Then an unparsable `user_id` gives 500, an existing member 400, and an unknown target user 500 |
| `ProjectViews.AddMemberOnlyAppends` | project_management/apps/projects/views.py:287-293 | Existing memberships are never modified: the old table is a prefix of the new one, and at most one row is added |
| `ProjectViews.AddMemberStoresAnyRole` | project_management/apps/projects/views.py:276-293 | The posted role is stored verbatim: the stored roles stay within the declared choices iff the posted role is one of them |
| `ProjectViews.ProjectCommentAdd` | project_management/apps/projects/views.py:330-365 | An unknown project gives 404 and whitespace-only text 400, with no change. Any authenticated POST to an existing project with text that is not all whitespace gives 200. The new store is the old one with exactly one comment appended, by the requester, with the stripped text and the current stamp, and the clock advanced |
| `ProjectViews.CommentIgnoresMemberships` | project_management/apps/projects/views.py:344-347 | The outcome does not depend on the membership table |
| `ProjectViews.CommentHeadsListing` | project_management/apps/projects/views.py:358-361 | The new comment heads its project's newest-first listing; other projects' listings are unchanged |
| `AccountViews.AuthenticateIdentifiesUser` | project_management/apps/accounts/views.py:160-164 | Authentication succeeds iff the stored credential of the username matches. In a valid store it then names an existing user whose only account is that username |
| `AccountViews.Authenticate` | project_management/apps/accounts/views.py:160 | A successful authentication returns the id of an existing user, the account stored under the given username, whose password matches; it fails when the username is unknown or the password differs |
| `AccountViews.SignupError` | project_management/apps/accounts/views.py:105-124 | The sign-up form is checked in order: any of the three fields missing or empty, then a password mismatch, then a taken username. The form passes iff none applies |
| `AccountViews.SignupPost` | project_management/apps/accounts/views.py:98-141 | A rejected form gives 400 with no change. An accepted one gives 201, adds exactly the new account (empty email by default) and logs it in. The store stays valid |
| `AccountViews.SignupHtmx` | project_management/apps/accounts/views.py:96-144 | A non-POST gives 200 with no change. A POST is exactly the shared sign-up step, so a rejected form gives 400 with no change, and an accepted one 201 |
| `AccountViews.SignupApi` | project_management/apps/accounts/views.py:15-59 | A non-POST gives 405 (OPTIONS 200) with no change. A POST is exactly the shared sign-up step, so a rejected form gives 400 with no change, and an accepted one 201 |
| `AccountViews.SignupViewsAgree` | project_management/apps/accounts/views.py:18-59 | The REST and HTMX sign-up views decide every POST identically |
| `AccountViews.SignupMismatchBeforeTaken` | project_management/apps/accounts/views.py:112-124 | A password mismatch is reported whatever the store holds, before the username is looked up |
| `AccountViews.SignupAddsOneUser` | project_management/apps/accounts/views.py:126-141 | A successful sign-up adds exactly one account, under a fresh id, and keeps every other account. The new session authenticates as that account, and the store stays valid |
| `AccountViews.SignupPostAddsAccount` | project_management/apps/accounts/views.py:127-134 | An accepted form adds one username and one account, found back by its credential, and the session names it |
| `AccountViews.LoginPost` | project_management/apps/accounts/views.py:152-171 | The store never changes. A missing field gives 400. A stored (username, password) pair gives 200 and that user as the session. Otherwise 401, with the session unchanged |
| `AccountViews.LoginHtmx` | project_management/apps/accounts/views.py:150-174 | A non-POST gives 200 without logging in; a POST runs the login check |
| `AccountViews.LoginApi` | project_management/apps/accounts/views.py:63-81 | A non-POST gives 405 (OPTIONS 200) without logging in |
| `AccountViews.LoginViewsAgree` | project_management/apps/accounts/views.py:66-81 | The REST and HTMX login views decide every POST identically |
| `AccountViews.LoginIffCredential` | project_management/apps/accounts/views.py:160-171 | A filled login succeeds iff the password matches the stored one for that username. Otherwise it gives 401 with the session unchanged |
| `AccountViews.SignupThenLogin` | project_management/apps/accounts/views.py:127-167 | After a successful sign-up, logging in with the same username and password succeeds and selects the new account |
| `AccountViews.LoginAuthenticatesNextRequest` | project_management/apps/accounts/views.py:163-164 | In a valid store, the session a successful login sets passes `login_required` on the next request |
| `AccountViews.LogoutApi` | project_management/apps/accounts/views.py:84-89 | Anonymous gets 403 whatever the verb. An authenticated POST gives 200 and clears the session, an OPTIONS request gives 200, and any other verb gives 405. Every request other than an authenticated POST leaves the session as it was |
| `AccountViews.LogoutHtmx` | project_management/apps/accounts/views.py:177-182 | A GET gives 200 and clears the session. Any other verb gets no response, so 500, and the session is unchanged |
| `AccountViews.UserLogout` | project_management/apps/accounts/views.py:185-189 | The status is always 302. The session is cleared iff the request was authenticated |
| `AccountViews.LogoutClearsSession` | project_management/apps/accounts/views.py:177-189 | Every logout handler that reaches `logout` leaves no session user, so the next request is anonymous; none touches the store |
| `Scenarios.CreateStoresLowercaseOwner` | project_management/apps/projects/views.py:172 | Creating a project stores the role `'owner'`, not `'Owner'` |
| `Scenarios.AddMemberRefusedForMisCasedOwner` | project_management/apps/projects/views.py:282-285 | With an `'Owner'` row, the foreign-key owner's add-member request gives 403 and adds nobody |
| `Scenarios.UpdateRefusedForMisCasedOwner` | project_management/apps/projects/views.py:222 | With an `'Owner'` row, the foreign-key owner's update gives 404 and the description is unchanged |
| `Scenarios.EditorDeleteAnswersOk` | project_management/apps/projects/views.py:192-198 | An editor's delete request gives 200 and the project survives |
| `Scenarios.OwnerDeleteRemoves` | project_management/apps/projects/views.py:199-203 | The foreign-key owner's delete gives 200 and removes the project and its memberships |
| `Scenarios.MisCasedMemberHiddenFromIndex` | project_management/apps/projects/views.py:109-113 | A member with role `'Owner'` may read by the permission class, but the index lists nothing |
| `Scenarios.CommentAcceptedWithoutPermission` | project_management/apps/projects/views.py:344-358 | A reader and a non-member both comment with 200, although `CanCommentOnProject` refuses both |
| `Scenarios.DuplicateNameLeavesProjectWithoutMembership` | project_management/apps/projects/views.py:165-172 | In any valid store, creating the same new name twice gives 200, then 500. The second project stays stored, owned by the requester, and no membership of anyone names it |
| `Scenarios.CreateTwiceSameName` | project_management/apps/projects/views.py:165-172 | At the store level, a second creation under a name first used by the first one gives 500. The second project stays stored and owned by the requester, and no row names it |
| `Scenarios.DuplicateNameFixed` | project_management/apps/projects/views.py:165-172 | The corrected creation gives 200 twice for the same requests, and each new project gets its own owner row |

## Left out

- Rendering: templates, `HX-Redirect` headers, the `messages` framework and `print` calls. A response is its status code and the store after it.
- Password hashing and the internals of `authenticate`, `login` and `logout`. The credential is the stored password compared for equality; the session is the optional id of the logged-in user.
- `is_active`: every account can authenticate.
- Username NFKC normalisation and email normalisation by `create_user`.
- The `max_length` column limits; names and roles are unbounded strings.
- CSRF enforcement, by `ensure_csrf_cookie`, the middleware and DRF's session authentication.
- The DRF authentication classes. The model assumes the defaults, so an anonymous `LogoutView` request gets 403.
- PyStr.ParseId: accepts only non-empty ASCII digit strings. Python's `int()` also accepts surrounding whitespace, a sign, underscores and other Unicode digits, so some ids it would parse are answered 500 here.
- `project_list_partial`, `project_create_form`, `project_comments_partial` and `project_detail_comments`: they only render and change no state.
- The `ProjectViewSet` methods: they sit inside a string literal and never run. Its `permission_classes` line is covered by the `Permissions` module.
- Code after a `return` in `project_update` and `project_add_member`: it is unreachable.
- The exception handler of `signup_htmx`. On the modelled inputs no exception reaches it: the username is checked before the insert, and requests run one at a time.
- Transactions and concurrency. Requests are applied one at a time in autocommit mode.
- `serializers.py` and both `urls.py`: declarations and routing only.
- `updated_at`: it is written on save and never read.
- ProjectViews.ProjectUpdate: models a POST with an empty name as 400. It assumes the template `apps/projects/partials/_project_update_form.html` resolves. Every other render in the file uses the `projects/` prefix (project_management/apps/projects/views.py:226). The settings and templates are not part of this model. Under the usual app-templates layout that template is missing, and the source would answer 500 with the store unchanged.
- AccountViews.UserLogout: models the redirect as 302 and assumes a URL named `'login'` resolves. Neither URL configuration in the repository defines one (project_management/apps/accounts/urls.py:4-9), and the project's root URL configuration is not part of this model. Without such a URL, `redirect('login')` raises after `logout` has run, giving 500 with the session cleared. Also, `user_logout` shares the path `logout/` with `logout_htmx`, which is listed first, so routing never reaches it.

## Findings

| source | as written | input that shows it | evidently intended | confidence | as-written member | corrected member |
|---|---|---|---|---|---|---|
| project_management/apps/projects/views.py:165-172 | After creating the project, the handler looks a project up again by `(name, owner)` with `.first()` and grants the owner membership on that one. That is the oldest project of the name, not the new one | A user who already owns a project "P" (with its owner membership) posts `name=P` again. The new project is stored, but the membership insert hits `unique_together` on the old project, giving 500. The new project is left with no membership of anyone, so its owner cannot update it. If the user first deletes the oldest "P" and then posts `name=P` a third time, the answer is 200: the `'owner'` row lands on the second "P", which had none, and the third is stored ownerless without any error | Grant the owner membership on the project object `Project.objects.create` returned | high; not executed | `Scenarios.DuplicateNameLeavesProjectWithoutMembership`, `ProjectViews.CreateAsReusedNameSilent` | `ProjectViews.ProjectCreateFixed` |

## Code and tests

The projects test suite expects behaviour the handlers do not have. The model
follows the code, and `Scenarios` states what the code does on each test's
fixture:
- The tests store and expect the role `'Owner'`. The code writes and compares
  `'owner'`, so with the tests' rows add-member answers 403 and update 404
  (`Scenarios.AddMemberRefusedForMisCasedOwner`, `Scenarios.UpdateRefusedForMisCasedOwner`).
- The delete test expects 403 or 404 for an editor. The handler answers 200
  and leaves the project in place (`Scenarios.EditorDeleteAnswersOk`).
- Delete and add-member identify the owner by the foreign key; update uses
  membership roles. Add-member needs both.
- The role check for comments is disabled, so anyone authenticated may
  comment on any existing project (`Scenarios.CommentAcceptedWithoutPermission`).

=== FILE: account_views.dfy ===
/**
  The accounts handlers: sign-up, login and logout, each as a REST view and an
  HTMX view. Authentication is abstracted as a credential relation (the stored
  password equals the posted one) and the session as the optional id of the
  logged-in user. The REST views answer a method they do not define with 405,
  except OPTIONS, which the framework answers itself with 200.
 */
module AccountViews {
  import opened Seqs
  import opened PyStr
  import opened Models
  import opened Http

  /** Which message a rejected form is shown with (the JSON `detail` for the REST views). */
  datatype FormError = FieldsRequired | PasswordsDiffer | UsernameTaken | InvalidCredentials

  /** An accounts handler's answer: the status, the store, the session's user afterwards, and the form error shown. */
  datatype AuthOutcome = AuthOutcome(status: nat, db: Store, session: Option<UserId>, error: Option<FormError>)

  /** `authenticate(username=..., password=...)`: the user whose stored credential matches. */
  function Authenticate(db: Store, username: string, password: string): (r: Option<UserId>)
    ensures r.Some? ==> UserExists(db, r.value)
                        && username in db.users && db.users[username].id == r.value
                        && db.users[username].password == password
    ensures r.None? ==> username !in db.users || db.users[username].password != password
  {
    if username in db.users && db.users[username].password == password then Some(db.users[username].id) else None
  }

  /**
    In a valid store a successful authentication names an existing user, and
    that user's only account is the one under the given username.
   */
  lemma AuthenticateIdentifiesUser(db: Store, username: string, password: string)
    requires Valid(db)
    ensures Authenticate(db, username, password).Some? <==>
              username in db.users && db.users[username].password == password
    ensures var r := Authenticate(db, username, password);
            r.Some? ==> UserExists(db, r.value)
                        && forall n :: n in db.users && db.users[n].id == r.value ==> n == username
  {
  }

  // ---------------------------------------------------------------- sign-up

  predicate SignupFieldsFilled(form: map<string, string>)
  {
    Filled(Field(form, "username")) && Filled(Field(form, "password")) && Filled(Field(form, "password_confirm"))
  }

  /**
    The three checks both sign-up views apply, in this order: all of username,
    password and confirmation present and non-empty; password equal to its
    confirmation; username not taken. `None` when the form passes.
   */
  function SignupError(db: Store, form: map<string, string>): (e: Option<FormError>)
    ensures e == Some(FieldsRequired) <==> !SignupFieldsFilled(form)
    ensures e == Some(PasswordsDiffer) <==>
              SignupFieldsFilled(form) && form["password"] != form["password_confirm"]
    ensures e == Some(UsernameTaken) <==>
              SignupFieldsFilled(form) && form["password"] == form["password_confirm"] && form["username"] in db.users
    ensures e.None? <==>
              SignupFieldsFilled(form) && form["password"] == form["password_confirm"] && form["username"] !in db.users
  {
    if !SignupFieldsFilled(form) then Some(FieldsRequired)
    else if form["password"] != form["password_confirm"] then Some(PasswordsDiffer)
    else if form["username"] in db.users then Some(UsernameTaken)
    else None
  }

  /**
    A sign-up POST, shared by both views: a rejected form gives 400 and
    changes nothing; an accepted one creates the user (email defaulting to
    the empty string), authenticates it and logs it in, and gives 201.
   */
  function SignupPost(db: Store, form: map<string, string>, session: Option<UserId>): (r: AuthOutcome)
    ensures r.error == SignupError(db, form)
    ensures r.error.Some? ==> r == AuthOutcome(BAD_REQUEST, db, session, r.error)
    ensures r.error.None? ==>
              && r.status == CREATED
              && r.db.users == db.users[form["username"] := Account(db.nextUserId, FieldOr(form, "email", ""), form["password"])]
              && r.db.projects == db.projects && r.db.memberships == db.memberships && r.db.comments == db.comments
              && r.session == Some(db.nextUserId)
    ensures Valid(db) ==> Valid(r.db)
  {
    match SignupError(db, form)
    case Some(e) => AuthOutcome(BAD_REQUEST, db, session, Some(e))
    case None =>
      var username := form["username"];
      var password := form["password"];
      var db' := InsertUser(db, username, FieldOr(form, "email", ""), password).value;
      var user := Authenticate(db', username, password);
      AuthOutcome(CREATED, db', if user.Some? then user else session, None)
  }

  /** `signup_htmx`: any method but POST renders the page (200) and changes nothing. */
  function SignupHtmx(db: Store, req: Request): (r: AuthOutcome)
    ensures req.verb != "POST" ==> r == AuthOutcome(OK, db, req.user, None)
    ensures req.verb == "POST" ==> r == SignupPost(db, req.form, req.user)
    ensures req.verb == "POST" ==> r.error == SignupError(db, req.form)
    ensures r.status == CREATED <==> req.verb == "POST" && SignupError(db, req.form).None?
    ensures r.status != CREATED ==> r.db == db && r.session == req.user
    ensures Valid(db) ==> Valid(r.db)
  {
    if req.verb != "POST" then AuthOutcome(OK, db, req.user, None)
    else SignupPost(db, req.form, req.user)
  }

  /** `SignupView`: only `post` is defined, so other methods get 405 (OPTIONS gets 200). */
  function SignupApi(db: Store, req: Request): (r: AuthOutcome)
    ensures req.verb != "POST" ==> r.db == db && r.session == req.user && r.error.None?
    ensures req.verb != "POST" ==> r.status == (if req.verb == "OPTIONS" then OK else METHOD_NOT_ALLOWED)
    ensures req.verb == "POST" ==> r == SignupPost(db, req.form, req.user)
    ensures r.status == CREATED <==> req.verb == "POST" && SignupError(db, req.form).None?
    ensures Valid(db) ==> Valid(r.db)
  {
    if req.verb == "POST" then SignupPost(db, req.form, req.user)
    else if req.verb == "OPTIONS" then AuthOutcome(OK, db, req.user, None)
    else AuthOutcome(METHOD_NOT_ALLOWED, db, req.user, None)
  }

  /** The REST view and the HTMX view decide every POST identically. */
  lemma SignupViewsAgree(db: Store, req: Request)
    requires req.verb == "POST"
    ensures SignupApi(db, req) == SignupHtmx(db, req)
  {
  }

  /**
    A mismatched confirmation is reported before a taken username: the
    store is checked only for a form whose passwords agree.
   */
  lemma SignupMismatchBeforeTaken(db: Store, req: Request)
    requires req.verb == "POST" && SignupFieldsFilled(req.form)
    requires req.form["password"] != req.form["password_confirm"]
    ensures SignupHtmx(db, req) == AuthOutcome(BAD_REQUEST, db, req.user, Some(PasswordsDiffer))
    ensures forall db' :: SignupHtmx(db', req).error == Some(PasswordsDiffer)
  {
  }

  /**
    A successful sign-up adds exactly one account, under the posted username
    and a fresh id, keeps the store valid, and logs that account in: the
    session now names it and authenticates it.
   */
  lemma SignupAddsOneUser(db: Store, req: Request)
    requires Valid(db) && req.verb == "POST" && SignupHtmx(db, req).status == CREATED
    ensures var r := SignupHtmx(db, req); var username := req.form["username"];
            && username !in db.users
            && r.db.users.Keys == db.users.Keys + {username}
            && |r.db.users| == |db.users| + 1
            && (forall n :: n in db.users ==> r.db.users[n] == db.users[n])
            && r.session.Some? && !UserExists(db, r.session.value) && UserExists(r.db, r.session.value)
            && Authenticate(r.db, username, req.form["password"]) == r.session
            && Valid(r.db)
  {
    var username := req.form["username"];
    var email := FieldOr(req.form, "email", "");
    SignupPostAddsAccount(db, req.form, req.user);
    var _ := InsertUser(db, username, email, req.form["password"]);
  }

  /** The store-level half of a successful sign-up: one new account, found by its credential. */
  lemma SignupPostAddsAccount(db: Store, form: map<string, string>, session: Option<UserId>)
    requires SignupError(db, form).None?
    ensures var r := SignupPost(db, form, session); var username := form["username"];
            && username !in db.users
            && r.db.users.Keys == db.users.Keys + {username}
            && |r.db.users| == |db.users| + 1
            && (forall n :: n in db.users ==> r.db.users[n] == db.users[n])
            && r.session == Some(db.nextUserId) && UserExists(r.db, db.nextUserId)
            && Authenticate(r.db, username, form["password"]) == r.session
  {
    var r := SignupPost(db, form, session);
    var username := form["username"];
    assert r.db.users[username].id == db.nextUserId;
  }

  // ------------------------------------------------------------------ login

  predicate LoginFieldsFilled(form: map<string, string>)
  {
    Filled(Field(form, "username")) && Filled(Field(form, "password"))
  }

  /**
    A login POST, shared by both views: 400 unless both fields are present,
    then 200 with the session set to the matching user, or 401 with the
    session unchanged. The store never changes.
   */
  function LoginPost(db: Store, form: map<string, string>, session: Option<UserId>): (r: AuthOutcome)
    ensures r.db == db
    ensures r.status in {OK, BAD_REQUEST, UNAUTHORIZED}
    ensures r.status == BAD_REQUEST <==> !LoginFieldsFilled(form)
    ensures r.status == OK <==> LoginFieldsFilled(form) && Authenticate(db, form["username"], form["password"]).Some?
    ensures r.status == OK ==> r.session == Authenticate(db, form["username"], form["password"])
    ensures r.status != OK ==> r.session == session
  {
    if !LoginFieldsFilled(form) then AuthOutcome(BAD_REQUEST, db, session, Some(FieldsRequired))
    else
      var user := Authenticate(db, form["username"], form["password"]);
      if user.Some? then AuthOutcome(OK, db, user, None)
      else AuthOutcome(UNAUTHORIZED, db, session, Some(InvalidCredentials))
  }

  /** `login_htmx`: any method but POST renders the page (200) without logging in. */
  function LoginHtmx(db: Store, req: Request): (r: AuthOutcome)
    ensures r.db == db
    ensures req.verb != "POST" ==> r == AuthOutcome(OK, db, req.user, None)
    ensures req.verb == "POST" ==> r == LoginPost(db, req.form, req.user)
  {
    if req.verb != "POST" then AuthOutcome(OK, db, req.user, None)
    else LoginPost(db, req.form, req.user)
  }

  /** `LoginView`: only `post` is defined, so other methods get 405 (OPTIONS gets 200). */
  function LoginApi(db: Store, req: Request): (r: AuthOutcome)
    ensures r.db == db
    ensures req.verb != "POST" ==> r.session == req.user && r.error.None?
    ensures req.verb != "POST" ==> r.status == (if req.verb == "OPTIONS" then OK else METHOD_NOT_ALLOWED)
  {
    if req.verb == "POST" then LoginPost(db, req.form, req.user)
    else if req.verb == "OPTIONS" then AuthOutcome(OK, db, req.user, None)
    else AuthOutcome(METHOD_NOT_ALLOWED, db, req.user, None)
  }

  /** The REST view and the HTMX view decide every POST identically. */
  lemma LoginViewsAgree(db: Store, req: Request)
    requires req.verb == "POST"
    ensures LoginApi(db, req) == LoginHtmx(db, req)
  {
  }

  /**
    A login POST succeeds exactly for a stored (username, password) pair; a
    wrong password for an existing username gives 401 and no session change.
   */
  lemma LoginIffCredential(db: Store, req: Request)
    requires req.verb == "POST" && LoginFieldsFilled(req.form)
    ensures var r := LoginHtmx(db, req); var n := req.form["username"];
            && (r.status == OK <==> n in db.users && db.users[n].password == req.form["password"])
            && (r.status == OK ==> r.session == Some(db.users[n].id))
            && (r.status != OK ==> r.status == UNAUTHORIZED && r.session == req.user)
  {
  }

  /**
    Sign-up then login round trip: after a successful sign-up, logging in
    with the same username and password succeeds and selects the new account.
   */
  lemma SignupThenLogin(db: Store, signup: Request, login: Request)
    requires Valid(db) && signup.verb == "POST" && SignupHtmx(db, signup).status == CREATED
    requires login.verb == "POST" && login.form == map["username" := signup.form["username"],
                                                        "password" := signup.form["password"]]
    ensures var s := SignupHtmx(db, signup); var l := LoginHtmx(s.db, login);
            && l.status == OK && l.session == s.session && l.session == Some(db.nextUserId)
  {
    SignupAddsOneUser(db, signup);
  }

  /**
    In a valid store the session a successful login sets is an authenticated
    one: the next request carrying it passes `login_required`.
   */
  lemma LoginAuthenticatesNextRequest(db: Store, req: Request, next: Request)
    requires Valid(db) && req.verb == "POST" && LoginHtmx(db, req).status == OK
    requires next.user == LoginHtmx(db, req).session
    ensures Authenticated(db, next)
  {
    AuthenticateIdentifiesUser(db, req.form["username"], req.form["password"]);
  }

  // ----------------------------------------------------------------- logout

  /**
    `LogoutView`: the `IsAuthenticated` permission is checked before the
    method is dispatched, so an anonymous request gets 403 whatever its
    method; an authenticated POST logs out.
   */
  function LogoutApi(db: Store, req: Request): (r: AuthOutcome)
    ensures r.db == db && r.error.None?
    ensures !Authenticated(db, req) ==> r.status == FORBIDDEN && r.session == req.user
    ensures r.session == None <==> (Authenticated(db, req) && req.verb == "POST") || req.user.None?
    ensures Authenticated(db, req) && req.verb == "POST" ==> r.status == OK
    ensures !(Authenticated(db, req) && req.verb == "POST") ==> r.session == req.user
    ensures Authenticated(db, req) && req.verb == "OPTIONS" ==> r.status == OK && r.session == req.user
    ensures Authenticated(db, req) && req.verb !in {"POST", "OPTIONS"} ==> r.status == METHOD_NOT_ALLOWED
  {
    if !Authenticated(db, req) then AuthOutcome(FORBIDDEN, db, req.user, None)
    else if req.verb == "POST" then AuthOutcome(OK, db, None, None)
    else if req.verb == "OPTIONS" then AuthOutcome(OK, db, req.user, None)
    else AuthOutcome(METHOD_NOT_ALLOWED, db, req.user, None)
  }

  /**
    `logout_htmx`: a GET logs out (anonymous or not) and renders 200; any
    other method falls off the end of the view, which returns no response,
    and the framework answers 500.
   */
  function LogoutHtmx(db: Store, req: Request): (r: AuthOutcome)
    ensures r.db == db && r.error.None?
    ensures r.status == OK <==> req.verb == "GET"
    ensures r.status != OK ==> r.status == SERVER_ERROR && r.session == req.user
    ensures req.verb == "GET" ==> r.session == None
  {
    if req.verb == "GET" then AuthOutcome(OK, db, None, None)
    else AuthOutcome(SERVER_ERROR, db, req.user, None)
  }

  /** `user_logout`: `login_required`, then log out and redirect to the login page (302 either way). */
  function UserLogout(db: Store, req: Request): (r: AuthOutcome)
    ensures r.db == db && r.error.None? && r.status == FOUND
    ensures r.session == (if Authenticated(db, req) then None else req.user)
  {
    if !Authenticated(db, req) then AuthOutcome(FOUND, db, req.user, None)
    else AuthOutcome(FOUND, db, None, None)
  }

  /**
    Every logout handler that reaches its `logout` call leaves no session
    user, so the next request is anonymous; none of them touches the store.
   */
  lemma LogoutClearsSession(db: Store, req: Request, next: Request)
    ensures var api := LogoutApi(db, req); var htmx := LogoutHtmx(db, req); var plain := UserLogout(db, req);
            && api.db == db && htmx.db == db && plain.db == db
            && (Authenticated(db, req) && req.verb == "POST" ==> api.session == None)
            && (req.verb == "GET" ==> htmx.session == None)
            && (Authenticated(db, req) ==> plain.session == None)
    ensures next.user == LogoutHtmx(db, req.(verb := "GET")).session ==> !Authenticated(db, next)
  {
  }
}

=== FILE: http.dfy ===
/**
  The request and response shapes shared by every handler: an HTTP verb, the
  session's user id and the posted form fields in; a status code and the new
  store out. Rendering is not modelled: a response is its status.
 */
module Http {
  import opened Seqs
  import opened Models

  const OK: nat := 200
  const CREATED: nat := 201
  const FOUND: nat := 302
  const BAD_REQUEST: nat := 400
  const UNAUTHORIZED: nat := 401
  const FORBIDDEN: nat := 403
  const NOT_FOUND: nat := 404
  const METHOD_NOT_ALLOWED: nat := 405
  const SERVER_ERROR: nat := 500

  /** `user` is the id the session points at; `form` is `request.POST` (or `request.data`). */
  datatype Request = Request(verb: string, user: Option<UserId>, form: map<string, string>)

  /** `request.POST.get(key)`. */
  function Field(form: map<string, string>, key: string): Option<string>
  {
    if key in form then Some(form[key]) else None
  }

  /** `request.POST.get(key, default)`. */
  function FieldOr(form: map<string, string>, key: string, default: string): string
  {
    if key in form then form[key] else default
  }

  /**
    `request.user.is_authenticated`: the session names a user that still exists
    (a session whose user row is gone yields the anonymous user).
   */
  predicate Authenticated(db: Store, req: Request)
  {
    req.user.Some? && UserExists(db, req.user.value)
  }

  /** A handler's answer: the status code and the store after the request. */
  datatype Outcome = Outcome(status: nat, db: Store)
}

=== FILE: models.dfy ===
/**
  The four tables of the application (users, projects, project memberships,
  comments) as one immutable store, the referential integrity the database
  keeps for them, and the store operations whose meaning comes from the model
  declarations: the `unique_together` insert and the `on_delete=CASCADE`
  deletes.

  Users are keyed by username (the auth table's unique column). Memberships
  and comments are kept as sequences of rows in primary-key order, so that
  `.first()` on an unordered queryset is the first matching row.
 */
module Models {
  import opened Seqs

  type UserId = nat
  type ProjectId = nat

  /** `ProjectMembership.role` is a free string column: the declared choices are not enforced on insert. */
  type Role = string

  const OWNER: Role := "owner"
  const EDITOR: Role := "editor"
  const READER: Role := "reader"

  /** The role vocabulary declared by `ROLE_CHOICES`. */
  const ROLE_CHOICES: set<Role> := {OWNER, EDITOR, READER}

  /** A row of the auth user table; `password` stands for the stored credential. */
  datatype Account = Account(id: UserId, email: string, password: string)

  datatype Project = Project(name: string, description: string, owner: UserId)

  datatype Membership = Membership(user: UserId, project: ProjectId, role: Role)

  /** `created` is the creation stamp (`auto_now_add`), drawn from the store's clock. */
  datatype Comment = Comment(project: ProjectId, user: UserId, text: string, created: nat)

  datatype Store = Store(
    users: map<string, Account>,
    projects: map<ProjectId, Project>,
    memberships: seq<Membership>,
    comments: seq<Comment>,
    nextUserId: nat,
    nextProjectId: nat,
    clock: nat)

  predicate UserExists(db: Store, u: UserId)
  {
    exists n | n in db.users :: db.users[n].id == u
  }

  predicate SamePair(a: Membership, b: Membership)
  {
    a.user == b.user && a.project == b.project
  }

  predicate DistinctPair(a: Membership, b: Membership)
  {
    !SamePair(a, b)
  }

  /** `unique_together = ('user', 'project')`. */
  ghost predicate UniquePairs(ms: seq<Membership>)
  {
    Pairwise(ms, DistinctPair)
  }

  predicate CreatedBefore(a: Comment, b: Comment)
  {
    a.created < b.created
  }

  /** Every stored role is one of the declared choices. This is NOT kept by the handlers. */
  ghost predicate RolesDeclared(ms: seq<Membership>)
  {
    forall m :: m in ms ==> m.role in ROLE_CHOICES
  }

  /**
    What the database guarantees of every state: unique user ids, fresh
    counters, every foreign key pointing at an existing row, unique
    membership pairs, and comments stored in creation order.
   */
  ghost predicate Valid(db: Store)
  {
    && (forall n :: n in db.users ==> db.users[n].id < db.nextUserId)
    && (forall n, n' :: n in db.users && n' in db.users && n != n' ==> db.users[n].id != db.users[n'].id)
    && (forall p :: p in db.projects ==> p < db.nextProjectId && UserExists(db, db.projects[p].owner))
    && (forall m :: m in db.memberships ==> UserExists(db, m.user) && m.project in db.projects)
    && UniquePairs(db.memberships)
    && (forall c :: c in db.comments ==> c.project in db.projects && UserExists(db, c.user) && c.created < db.clock)
    && Pairwise(db.comments, CreatedBefore)
  }

  predicate HasMembership(ms: seq<Membership>, u: UserId, p: ProjectId)
  {
    exists i :: 0 <= i < |ms| && ms[i].user == u && ms[i].project == p
  }

  /** Two memberships of one pair in a table with unique pairs are the same row. */
  lemma UniquePairsSameRow(ms: seq<Membership>, i: nat, j: nat)
    requires UniquePairs(ms)
    requires i < |ms| && j < |ms| && SamePair(ms[i], ms[j])
    ensures i == j
  {
    assert i < j ==> DistinctPair(ms[i], ms[j]);
    assert j < i ==> DistinctPair(ms[j], ms[i]);
  }

  /**
    `ProjectMembership.objects.filter(user=u, project=p).first()`: the role of the
    first matching row. With unique pairs it is the role of the one membership.
   */
  function RoleOn(ms: seq<Membership>, u: UserId, p: ProjectId): (r: Option<Role>)
    ensures r.None? <==> !HasMembership(ms, u, p)
    ensures r.Some? ==> Membership(u, p, r.value) in ms
    ensures UniquePairs(ms) ==>
      forall i :: 0 <= i < |ms| && ms[i].user == u && ms[i].project == p ==> r == Some(ms[i].role)
  {
    var k := FirstIndex(ms, (m: Membership) => m.user == u && m.project == p);
    if k.None? then None
    else
      assert ms[k.value] == Membership(u, p, ms[k.value].role);
      assert UniquePairs(ms) ==> forall i :: 0 <= i < |ms| && ms[i].user == u && ms[i].project == p ==> i == k.value by {
        if UniquePairs(ms) {
          forall i | 0 <= i < |ms| && ms[i].user == u && ms[i].project == p ensures i == k.value {
            UniquePairsSameRow(ms, i, k.value);
          }
        }
      }
      Some(ms[k.value].role)
  }

  /**
    `ProjectMembership.objects.create(...)`: the insert succeeds exactly when the
    pair is new and both foreign keys resolve; otherwise the database raises
    an integrity error and nothing is written.
   */
  function InsertMembership(db: Store, m: Membership): (r: Option<Store>)
    ensures r.Some? <==> !HasMembership(db.memberships, m.user, m.project)
                         && UserExists(db, m.user) && m.project in db.projects
    ensures r.Some? ==> r.value == db.(memberships := db.memberships + [m])
    ensures r.Some? && Valid(db) ==> Valid(r.value)
  {
    if !HasMembership(db.memberships, m.user, m.project) && UserExists(db, m.user) && m.project in db.projects then
      var db' := db.(memberships := db.memberships + [m]);
      assert Valid(db) ==> Valid(db') by {
        if Valid(db) {
          var ms := db'.memberships;
          forall i, j | 0 <= i < j < |ms| ensures DistinctPair(ms[i], ms[j]) {
            assert ms[i] == db.memberships[i];
            if j == |ms| - 1 {
              assert !(db.memberships[i].user == m.user && db.memberships[i].project == m.project);
            } else {
              assert ms[j] == db.memberships[j];
            }
          }
        }
      }
      Some(db')
    else None
  }

  /**
    With unique pairs, a filter that only accepts rows of one (user, project)
    pair keeps at most one row.
   */
  lemma {:induction false} OnePairAtMostOneRow(ms: seq<Membership>, f: Membership -> bool, u: UserId, p: ProjectId)
    requires UniquePairs(ms)
    requires forall m :: f(m) ==> m.user == u && m.project == p
    ensures |Filter(ms, f)| <= 1
  {
    if ms != [] {
      var init, last := ms[..|ms| - 1], ms[|ms| - 1];
      assert UniquePairs(init) by {
        forall i, j | 0 <= i < j < |init| ensures DistinctPair(init[i], init[j]) {
          assert init[i] == ms[i] && init[j] == ms[j];
        }
      }
      OnePairAtMostOneRow(init, f, u, p);
      if f(last) {
        forall i | 0 <= i < |init| ensures !f(init[i]) {
          assert DistinctPair(ms[i], ms[|ms| - 1]);
        }
        FilterNone(init, f);
      }
    }
  }

  /**
    `User.objects.create_user(...)`: a new account under the next primary key.
    The username column is unique, so a taken name raises and nothing is written.
   */
  function InsertUser(db: Store, username: string, email: string, password: string): (r: Option<Store>)
    ensures r.Some? <==> username !in db.users
    ensures r.Some? ==> && r.value.users == db.users[username := Account(db.nextUserId, email, password)]
                        && r.value.nextUserId == db.nextUserId + 1
                        && r.value.projects == db.projects && r.value.memberships == db.memberships
                        && r.value.comments == db.comments && r.value.clock == db.clock
    ensures r.Some? && Valid(db) ==> Valid(r.value) && !UserExists(db, db.nextUserId)
  {
    if username in db.users then None
    else
      var r := db.(users := db.users[username := Account(db.nextUserId, email, password)],
                   nextUserId := db.nextUserId + 1);
      assert Valid(db) ==> Valid(r) && !UserExists(db, db.nextUserId) by {
        if Valid(db) {
          forall p | p in r.projects ensures UserExists(r, r.projects[p].owner) {
            UserStillExists(db, r, db.projects[p].owner);
          }
          forall m | m in r.memberships ensures UserExists(r, m.user) { UserStillExists(db, r, m.user); }
          forall c | c in r.comments ensures UserExists(r, c.user) { UserStillExists(db, r, c.user); }
        }
      }
      Some(r)
  }

  /** `Project.objects.create(...)`: a new row under the next primary key. */
  function InsertProject(db: Store, pr: Project): (r: Store)
    ensures r.projects == db.projects[db.nextProjectId := pr]
    ensures r.nextProjectId == db.nextProjectId + 1
    ensures r.users == db.users && r.memberships == db.memberships && r.comments == db.comments
    ensures Valid(db) ==> db.nextProjectId !in db.projects
    ensures Valid(db) && UserExists(db, pr.owner) ==> Valid(r)
  {
    var r := db.(projects := db.projects[db.nextProjectId := pr], nextProjectId := db.nextProjectId + 1);
    assert Valid(db) && UserExists(db, pr.owner) ==> Valid(r) by {
      if Valid(db) && UserExists(db, pr.owner) {
        forall p | p in r.projects ensures UserExists(r, r.projects[p].owner) {
          if p != db.nextProjectId { UserStillExists(db, r, db.projects[p].owner); }
          else { UserStillExists(db, r, pr.owner); }
        }
        forall m | m in r.memberships ensures UserExists(r, m.user) { UserStillExists(db, r, m.user); }
        forall c | c in r.comments ensures UserExists(r, c.user) { UserStillExists(db, r, c.user); }
      }
    }
    r
  }

  /** `project.save()` after changing fields other than the owner. */
  function SaveProject(db: Store, pk: ProjectId, name: string, description: string): (r: Store)
    requires pk in db.projects
    ensures r.projects == db.projects[pk := db.projects[pk].(name := name, description := description)]
    ensures r.users == db.users && r.memberships == db.memberships && r.comments == db.comments
    ensures Valid(db) ==> Valid(r)
  {
    var r := db.(projects := db.projects[pk := db.projects[pk].(name := name, description := description)]);
    assert Valid(db) ==> Valid(r) by {
      if Valid(db) {
        forall p | p in r.projects ensures UserExists(r, r.projects[p].owner) {
          UserStillExists(db, r, db.projects[p].owner);
        }
        forall m | m in r.memberships ensures UserExists(r, m.user) { UserStillExists(db, r, m.user); }
        forall c | c in r.comments ensures UserExists(r, c.user) { UserStillExists(db, r, c.user); }
      }
    }
    r
  }

  /** `Comment.objects.create(...)`: appended with the current clock as its creation stamp. */
  function AddComment(db: Store, p: ProjectId, u: UserId, text: string): (r: Store)
    ensures r.comments == db.comments + [Comment(p, u, text, db.clock)]
    ensures r.clock == db.clock + 1
    ensures r.users == db.users && r.projects == db.projects && r.memberships == db.memberships
    ensures r.nextUserId == db.nextUserId && r.nextProjectId == db.nextProjectId
    ensures Valid(db) && p in db.projects && UserExists(db, u) ==> Valid(r)
  {
    var c := Comment(p, u, text, db.clock);
    var r := db.(comments := db.comments + [c], clock := db.clock + 1);
    assert Valid(db) && p in db.projects && UserExists(db, u) ==> Valid(r) by {
      if Valid(db) && p in db.projects && UserExists(db, u) {
        var cs := r.comments;
        forall i, j | 0 <= i < j < |cs| ensures CreatedBefore(cs[i], cs[j]) {
          assert cs[i] == db.comments[i] && cs[i] in db.comments;
          if j < |db.comments| { assert cs[j] == db.comments[j]; }
        }
      }
    }
    r
  }

  /** The users still present keep witnessing the ids they witnessed. */
  lemma UserStillExists(db: Store, db': Store, u: UserId)
    requires UserExists(db, u)
    requires forall n :: n in db.users && db.users[n].id == u ==> n in db'.users && db'.users[n] == db.users[n]
    ensures UserExists(db', u)
  {
    var n :| n in db.users && db.users[n].id == u;
    assert db'.users[n].id == u;
  }

  /**
    `project.delete()`: the project row goes, and with it (on_delete=CASCADE)
    every membership and every comment of that project; nothing else changes.
   */
  function DeleteProject(db: Store, p: ProjectId): (r: Store)
    ensures p !in r.projects
    ensures forall q :: q != p ==> (q in r.projects <==> q in db.projects)
    ensures forall q :: q in r.projects ==> r.projects[q] == db.projects[q]
    ensures forall m :: m in r.memberships <==> m in db.memberships && m.project != p
    ensures forall c :: c in r.comments <==> c in db.comments && c.project != p
    ensures r.users == db.users
    ensures Valid(db) ==> Valid(r)
  {
    var r := db.(projects := db.projects - {p},
                 memberships := Filter(db.memberships, (m: Membership) => m.project != p),
                 comments := Filter(db.comments, (c: Comment) => c.project != p));
    assert Valid(db) ==> Valid(r) by {
      if Valid(db) {
        FilterPairwise(db.memberships, (m: Membership) => m.project != p, DistinctPair);
        FilterPairwise(db.comments, (c: Comment) => c.project != p, CreatedBefore);
        forall q | q in r.projects ensures UserExists(r, r.projects[q].owner) {
          UserStillExists(db, r, db.projects[q].owner);
        }
        forall m | m in r.memberships ensures UserExists(r, m.user) {
          UserStillExists(db, r, m.user);
        }
        forall c | c in r.comments ensures UserExists(r, c.user) {
          UserStillExists(db, r, c.user);
        }
      }
    }
    r
  }

  /** The projects a user owns through the `owner` foreign key. */
  function OwnedBy(db: Store, u: UserId): set<ProjectId>
  {
    set p | p in db.projects && db.projects[p].owner == u
  }

  /**
    `user.delete()`: the account goes, and by cascade its owned projects (with
    their memberships and comments), its own memberships and its own comments.
   */
  function DeleteUser(db: Store, u: UserId): (r: Store)
    ensures forall n :: n in r.users <==> n in db.users && db.users[n].id != u
    ensures forall n :: n in r.users ==> r.users[n] == db.users[n]
    ensures forall p :: p in r.projects <==> p in db.projects && db.projects[p].owner != u
    ensures forall p :: p in r.projects ==> r.projects[p] == db.projects[p]
    ensures forall m :: m in r.memberships <==> m in db.memberships && m.user != u && m.project !in OwnedBy(db, u)
    ensures forall c :: c in r.comments <==> c in db.comments && c.user != u && c.project !in OwnedBy(db, u)
    ensures Valid(db) ==> Valid(r)
  {
    var gone := OwnedBy(db, u);
    var keepM := (m: Membership) => m.user != u && m.project !in gone;
    var keepC := (c: Comment) => c.user != u && c.project !in gone;
    var r := db.(users := map n | n in db.users && db.users[n].id != u :: db.users[n],
                 projects := map p | p in db.projects && db.projects[p].owner != u :: db.projects[p],
                 memberships := Filter(db.memberships, keepM),
                 comments := Filter(db.comments, keepC));
    assert Valid(db) ==> Valid(r) by {
      if Valid(db) {
        FilterPairwise(db.memberships, keepM, DistinctPair);
        FilterPairwise(db.comments, keepC, CreatedBefore);
        forall q | q in r.projects ensures UserExists(r, r.projects[q].owner) {
          UserStillExists(db, r, db.projects[q].owner);
        }
        forall m | m in r.memberships ensures UserExists(r, m.user) && m.project in r.projects {
          UserStillExists(db, r, m.user);
        }
        forall c | c in r.comments ensures UserExists(r, c.user) && c.project in r.projects {
          UserStillExists(db, r, c.user);
        }
      }
    }
    r
  }
}

=== FILE: permissions.dfy ===
/**
  The two object-level permission classes, as predicates over the membership
  table, and what they decide for each role.
 */
module Permissions {
  import opened Seqs
  import opened Models

  /** The methods DRF treats as read-only. */
  const SAFE_METHODS: set<string> := {"GET", "HEAD", "OPTIONS"}

  /** `IsProjectOwnerOrReadOnly.has_object_permission` for a project object. */
  predicate IsProjectOwnerOrReadOnly(ms: seq<Membership>, verb: string, user: UserId, project: ProjectId): (allowed: bool)
    ensures allowed ==> exists role :: Membership(user, project, role) in ms
    ensures allowed && verb !in SAFE_METHODS ==>
              Membership(user, project, OWNER) in ms || Membership(user, project, EDITOR) in ms
  {
    if verb in SAFE_METHODS then HasMembership(ms, user, project)
    else
      match RoleOn(ms, user, project)
      case None => false
      case Some(role) => role == OWNER || (role == EDITOR && verb in {"PUT", "PATCH"})
  }

  /** The object handed to `CanCommentOnProject`: a project, or something with a `project` attribute. */
  datatype CommentTarget = ProjectObject(id: ProjectId) | CommentObject(comment: Comment)

  function TargetProject(obj: CommentTarget): ProjectId
  {
    match obj
    case ProjectObject(id) => id
    case CommentObject(c) => c.project
  }

  /** `CanCommentOnProject.has_object_permission`. */
  predicate CanCommentOnProject(ms: seq<Membership>, user: UserId, obj: CommentTarget): (allowed: bool)
    ensures allowed ==>
              Membership(user, TargetProject(obj), OWNER) in ms || Membership(user, TargetProject(obj), EDITOR) in ms
  {
    match RoleOn(ms, user, TargetProject(obj))
    case None => false
    case Some(role) => role in {OWNER, EDITOR}
  }

  /**
    An independent reading of the policy as privilege tiers: a role's rank and
    the rank a verb needs. Any role string other than the two exact
    lowercase literals ranks as a plain member.
   */
  function Rank(role: Role): nat
  {
    if role == OWNER then 3 else if role == EDITOR then 2 else 1
  }

  function Need(verb: string): nat
  {
    if verb in SAFE_METHODS then 1 else if verb in {"PUT", "PATCH"} then 2 else 3
  }

  /** The permission class is exactly the tier comparison applied to the first membership row. */
  lemma DecisionIsRankComparison(ms: seq<Membership>, verb: string, u: UserId, p: ProjectId)
    ensures IsProjectOwnerOrReadOnly(ms, verb, u, p)
            <==> RoleOn(ms, u, p).Some? && Need(verb) <= Rank(RoleOn(ms, u, p).value)
  {
  }

  /** A safe verb is allowed exactly when some membership of the pair exists, whatever its role. */
  lemma SafeMethodIffMember(ms: seq<Membership>, verb: string, u: UserId, p: ProjectId)
    requires verb in SAFE_METHODS
    ensures IsProjectOwnerOrReadOnly(ms, verb, u, p) <==> exists role :: Membership(u, p, role) in ms
  {
    if HasMembership(ms, u, p) {
      var i :| 0 <= i < |ms| && ms[i].user == u && ms[i].project == p;
      assert Membership(u, p, ms[i].role) == ms[i];
    }
  }

  /** Without a membership every non-safe verb is denied. */
  lemma NonMemberDenied(ms: seq<Membership>, verb: string, u: UserId, p: ProjectId)
    requires verb !in SAFE_METHODS
    requires forall role :: Membership(u, p, role) !in ms
    ensures !IsProjectOwnerOrReadOnly(ms, verb, u, p)
  {
  }

  /** An `'owner'` membership allows every verb. */
  lemma OwnerAllowsAll(ms: seq<Membership>, verb: string, u: UserId, p: ProjectId)
    requires UniquePairs(ms)
    requires Membership(u, p, OWNER) in ms
    ensures IsProjectOwnerOrReadOnly(ms, verb, u, p)
  {
    var i :| 0 <= i < |ms| && ms[i] == Membership(u, p, OWNER);
    assert RoleOn(ms, u, p) == Some(OWNER);
  }

  /** An `'editor'` membership allows the safe methods and PUT and PATCH, and nothing else. */
  lemma EditorAllowsExactlyUpdates(ms: seq<Membership>, verb: string, u: UserId, p: ProjectId)
    requires UniquePairs(ms)
    requires Membership(u, p, EDITOR) in ms
    ensures IsProjectOwnerOrReadOnly(ms, verb, u, p) <==> verb in SAFE_METHODS || verb in {"PUT", "PATCH"}
    ensures !IsProjectOwnerOrReadOnly(ms, "POST", u, p) && !IsProjectOwnerOrReadOnly(ms, "DELETE", u, p)
  {
    var i :| 0 <= i < |ms| && ms[i] == Membership(u, p, EDITOR);
    assert RoleOn(ms, u, p) == Some(EDITOR);
  }

  /**
    Any other role string, `'reader'` and mis-cased `'Owner'` included, is
    allowed the safe methods only.
   */
  lemma OtherRolesReadOnly(ms: seq<Membership>, verb: string, u: UserId, p: ProjectId, role: Role)
    requires UniquePairs(ms)
    requires Membership(u, p, role) in ms
    requires role != OWNER && role != EDITOR
    ensures IsProjectOwnerOrReadOnly(ms, verb, u, p) <==> verb in SAFE_METHODS
  {
    var i :| 0 <= i < |ms| && ms[i] == Membership(u, p, role);
    assert RoleOn(ms, u, p) == Some(role);
  }

  /**
    Privilege is monotone in the tier: whatever a member of lower rank may do
    on a project, a member of higher rank may do too. In particular
    reader <= editor <= owner.
   */
  lemma PrivilegeMonotone(ms1: seq<Membership>, ms2: seq<Membership>, verb: string,
                          u: UserId, p: ProjectId, r1: Role, r2: Role)
    requires UniquePairs(ms1) && UniquePairs(ms2)
    requires Membership(u, p, r1) in ms1 && Membership(u, p, r2) in ms2
    requires Rank(r1) <= Rank(r2)
    ensures IsProjectOwnerOrReadOnly(ms1, verb, u, p) ==> IsProjectOwnerOrReadOnly(ms2, verb, u, p)
    ensures Rank(READER) < Rank(EDITOR) < Rank(OWNER)
  {
    var i :| 0 <= i < |ms1| && ms1[i] == Membership(u, p, r1);
    var j :| 0 <= j < |ms2| && ms2[j] == Membership(u, p, r2);
    assert RoleOn(ms1, u, p) == Some(r1);
    assert RoleOn(ms2, u, p) == Some(r2);
    DecisionIsRankComparison(ms1, verb, u, p);
    DecisionIsRankComparison(ms2, verb, u, p);
  }

  /**
    Commenting is allowed exactly when the membership of the target's project
    has role owner or editor; for a comment object, the comment's project counts.
   */
  lemma CanCommentIffWriter(ms: seq<Membership>, u: UserId, obj: CommentTarget)
    requires UniquePairs(ms)
    ensures CanCommentOnProject(ms, u, obj)
            <==> Membership(u, TargetProject(obj), OWNER) in ms || Membership(u, TargetProject(obj), EDITOR) in ms
    ensures obj.CommentObject? ==>
              (CanCommentOnProject(ms, u, obj) <==> CanCommentOnProject(ms, u, ProjectObject(obj.comment.project)))
  {
    var p := TargetProject(obj);
    if Membership(u, p, OWNER) in ms {
      var i :| 0 <= i < |ms| && ms[i] == Membership(u, p, OWNER);
      assert RoleOn(ms, u, p) == Some(OWNER);
    }
    if Membership(u, p, EDITOR) in ms {
      var i :| 0 <= i < |ms| && ms[i] == Membership(u, p, EDITOR);
      assert RoleOn(ms, u, p) == Some(EDITOR);
    }
  }

  /** The roles that may comment are exactly the roles that may PUT. */
  lemma CommentIffPut(ms: seq<Membership>, u: UserId, p: ProjectId)
    ensures CanCommentOnProject(ms, u, ProjectObject(p)) <==> IsProjectOwnerOrReadOnly(ms, "PUT", u, p)
  {
  }
}

=== FILE: project_views.dfy ===
/**
  The HTMX handlers of the projects app as transitions of the store. Each
  handler first applies its decorators: `login_required` answers an
  unauthenticated request with a redirect to the login page (302), and
  `require_http_methods` answers a method outside its list with 405; in both
  cases the store is untouched.
 */
module ProjectViews {
  import opened Seqs
  import opened PyStr
  import opened Models
  import opened Http
  import opened Permissions

  // ---------------------------------------------------------------- listing

  /**
    `project_index`'s queryset: projects the user owns through the foreign key,
    or on which the user holds a membership whose role is one of the three
    declared choices; `.distinct()` makes it a set.
   */
  function VisibleProjects(db: Store, u: UserId): (r: set<ProjectId>)
    ensures r <= db.projects.Keys
    ensures forall p :: p in db.projects && db.projects[p].owner == u ==> p in r
    ensures forall role, p :: p in db.projects && role in ROLE_CHOICES && Membership(u, p, role) in db.memberships ==> p in r
  {
    set p | p in db.projects && (db.projects[p].owner == u
              || exists i :: 0 <= i < |db.memberships| && db.memberships[i].user == u
                             && db.memberships[i].project == p && db.memberships[i].role in ROLE_CHOICES)
  }

  /** The `project=p` filter on comments. */
  function OnProject(p: ProjectId): Comment -> bool
  {
    (c: Comment) => c.project == p
  }

  /** `project.comments.order_by('-created_at')`: the project's comments, newest first. */
  function CommentsNewestFirst(db: Store, p: ProjectId): (r: seq<Comment>)
    ensures forall c :: c in r <==> c in db.comments && c.project == p
    ensures Pairwise(db.comments, CreatedBefore) ==>
              forall i, j :: 0 <= i < j < |r| ==> r[j].created < r[i].created
  {
    var f := OnProject(p);
    var mine := Filter(db.comments, f);
    var r := Reverse(mine);
    ReverseMembers(mine);
    assert Pairwise(db.comments, CreatedBefore) ==> forall i, j :: 0 <= i < j < |r| ==> r[j].created < r[i].created by {
      if Pairwise(db.comments, CreatedBefore) {
        FilterPairwise(db.comments, f, CreatedBefore);
        ReversePairwise(mine, CreatedBefore);
      }
    }
    r
  }

  datatype IndexPage =
    | LoginRedirect
    | Index(projects: set<ProjectId>, first: Option<ProjectId>, firstComments: seq<Comment>)

  /**
    `project_index`: the visible projects, the first of them (`.first()` orders
    by primary key) and that project's comments newest first.
   */
  function ProjectIndex(db: Store, req: Request): (r: IndexPage)
    ensures r.LoginRedirect? <==> !Authenticated(db, req)
    ensures r.Index? ==> r.projects == VisibleProjects(db, req.user.value)
    ensures r.Index? && r.first.Some? ==> (r.first.value in r.projects
                                           && r.firstComments == CommentsNewestFirst(db, r.first.value))
    ensures r.Index? && r.first.None? ==> r.firstComments == []
  {
    if !Authenticated(db, req) then LoginRedirect
    else
      var visible := VisibleProjects(db, req.user.value);
      var first := LeastIn(visible, 0, db.nextProjectId);
      Index(visible, first, if first.Some? then CommentsNewestFirst(db, first.value) else [])
  }

  /**
    The index lists every project the user owns or is a declared-role member
    of, each once; and the page opens on the visible project of least id.
   */
  lemma IndexShowsOwnedAndMemberProjects(db: Store, req: Request)
    requires Valid(db) && Authenticated(db, req)
    ensures var r := ProjectIndex(db, req); var u := req.user.value;
            && (forall p :: p in r.projects <==> (p in db.projects && (db.projects[p].owner == u
                  || exists role :: role in ROLE_CHOICES && Membership(u, p, role) in db.memberships)))
            && (r.first.None? <==> r.projects == {})
            && (r.first.Some? ==> forall q :: q in r.projects ==> r.first.value <= q)
  {
    var r := ProjectIndex(db, req);
    var u := req.user.value;
    var ms := db.memberships;
    forall p | p in r.projects && db.projects[p].owner != u
      ensures exists role :: role in ROLE_CHOICES && Membership(u, p, role) in ms
    {
      var i :| 0 <= i < |ms| && ms[i].user == u && ms[i].project == p && ms[i].role in ROLE_CHOICES;
      assert Membership(u, p, ms[i].role) == ms[i];
    }
    forall q | q in r.projects ensures r.first.Some? {
      assert q < db.nextProjectId;
    }
  }

  /**
    While every stored role is a declared choice, the index lists a project
    exactly when the user owns it or the permission class lets the user read
    it. A role outside the choices breaks the second half (see the scenarios).
   */
  lemma IndexAgreesWithReadPermission(db: Store, u: UserId, p: ProjectId)
    requires RolesDeclared(db.memberships) && p in db.projects
    ensures p in VisibleProjects(db, u) <==>
              db.projects[p].owner == u || IsProjectOwnerOrReadOnly(db.memberships, "GET", u, p)
  {
    var ms := db.memberships;
    SafeMethodIffMember(ms, "GET", u, p);
    if HasMembership(ms, u, p) {
      var i :| 0 <= i < |ms| && ms[i].user == u && ms[i].project == p;
      assert ms[i] in ms;
    }
  }

  // --------------------------------------------------------------- creation

  /** The projects of `u` named `name` (the queryset at the lookup after the insert). */
  function OwnedNamed(projects: map<ProjectId, Project>, name: string, u: UserId): set<ProjectId>
  {
    set p | p in projects && projects[p].name == name && projects[p].owner == u
  }

  /**
    `project_create` as written: after the decorators and the name check, the
    project is inserted and the requester made its owner (see `CreateAs`).
   */
  function ProjectCreate(db: Store, req: Request): (r: Outcome)
    ensures !Authenticated(db, req) ==> r == Outcome(FOUND, db)
    ensures Authenticated(db, req) && req.verb != "POST" ==> r == Outcome(METHOD_NOT_ALLOWED, db)
    ensures r.status == BAD_REQUEST <==>
              Authenticated(db, req) && req.verb == "POST" && !Filled(Field(req.form, "name"))
    ensures r.status !in {OK, SERVER_ERROR} ==> r.db == db
    ensures r.status in {OK, SERVER_ERROR} <==>
              Authenticated(db, req) && req.verb == "POST" && Filled(Field(req.form, "name"))
    ensures Authenticated(db, req) && req.verb == "POST" && Filled(Field(req.form, "name")) ==>
              r == CreateAs(db, req.user.value, req.form["name"], Strip(FieldOr(req.form, "description", "")))
    ensures Valid(db) ==> Valid(r.db)
  {
    if !Authenticated(db, req) then Outcome(FOUND, db)
    else if req.verb != "POST" then Outcome(METHOD_NOT_ALLOWED, db)
    else
      var name := Field(req.form, "name");
      var description := Strip(FieldOr(req.form, "description", ""));
      if !Filled(name) then Outcome(BAD_REQUEST, db)
      else CreateAs(db, req.user.value, name.value, description)
  }

  /**
    The body of `project_create` for user `u`: insert the project, then look
    the project up again by (name, owner) and `.first()` (least id), and give
    `u` an `'owner'` membership on whatever that lookup found. A failing
    membership insert raises after the project row is already committed.
   */
  function CreateAs(db: Store, u: UserId, name: string, description: string): (r: Outcome)
    ensures r.status in {OK, SERVER_ERROR}
    ensures r.db.projects == db.projects[db.nextProjectId := Project(name, description, u)]
    ensures r.db.nextProjectId == db.nextProjectId + 1
    ensures r.db.users == db.users && r.db.comments == db.comments
    ensures r.status == OK ==>
              exists t :: t in OwnedNamed(r.db.projects, name, u)
                          && (forall q :: q in OwnedNamed(r.db.projects, name, u) ==> t <= q)
                          && r.db.memberships == db.memberships + [Membership(u, t, OWNER)]
    ensures r.status == SERVER_ERROR ==> r.db.memberships == db.memberships
    ensures Valid(db) && UserExists(db, u) ==> Valid(r.db)
  {
    var id := db.nextProjectId;
    var db1 := InsertProject(db, Project(name, description, u));
    var t := CreateLookup(db1, name, u, id);
    match InsertMembership(db1, Membership(u, t, OWNER))
    case None => Outcome(SERVER_ERROR, db1)
    case Some(db2) => Outcome(OK, db2)
  }

  /**
    `Project.objects.filter(name=name, owner=u).first()` right after inserting
    project `id`: the least id among the requester's projects of that name.
   */
  function CreateLookup(db1: Store, name: string, u: UserId, id: ProjectId): (t: ProjectId)
    requires id in OwnedNamed(db1.projects, name, u)
    ensures t in OwnedNamed(db1.projects, name, u) && t <= id
    ensures forall q :: q in OwnedNamed(db1.projects, name, u) ==> t <= q
  {
    var named := OwnedNamed(db1.projects, name, u);
    var t := LeastIn(named, 0, id + 1).value;
    assert forall q :: q in named ==> t <= q by {
      forall q | q in named ensures t <= q {
        assert !(0 <= q < t) || q !in named;
      }
    }
    t
  }

  /** In a valid store the next project id is unused, by projects and by memberships alike. */
  lemma FreshProjectId(db: Store)
    requires Valid(db)
    ensures db.nextProjectId !in db.projects
    ensures forall p :: p in db.projects ==> p < db.nextProjectId
    ensures forall i :: 0 <= i < |db.memberships| ==> db.memberships[i].project < db.nextProjectId
  {
    forall i | 0 <= i < |db.memberships| ensures db.memberships[i].project < db.nextProjectId {
      assert db.memberships[i] in db.memberships;
    }
  }

  /** With a name `u` has not used yet, the lookup finds the new project and the grant succeeds. */
  lemma CreateAsFreshName(db: Store, u: UserId, name: string, description: string)
    requires UserExists(db, u) && db.nextProjectId !in db.projects
    requires forall i :: 0 <= i < |db.memberships| ==> db.memberships[i].project != db.nextProjectId
    requires OwnedNamed(db.projects, name, u) == {}
    ensures CreateAs(db, u, name, description).status == OK
    ensures CreateAs(db, u, name, description).db.memberships
            == db.memberships + [Membership(u, db.nextProjectId, OWNER)]
  {
    var id := db.nextProjectId;
    var db1 := InsertProject(db, Project(name, description, u));
    assert OwnedNamed(db1.projects, name, u) == {id};
    assert CreateLookup(db1, name, u, id) == id;
    UserStillExists(db, db1, u);
    assert InsertMembership(db1, Membership(u, id, OWNER)).Some?;
  }

  /**
    A fresh name succeeds: one project owned by the requester is added under a
    fresh id, with exactly one `(requester, project, 'owner')` membership.
   */
  lemma CreateWithFreshName(db: Store, req: Request)
    requires Valid(db) && Authenticated(db, req) && req.verb == "POST" && Filled(Field(req.form, "name"))
    requires OwnedNamed(db.projects, req.form["name"], req.user.value) == {}
    ensures var r := ProjectCreate(db, req); var id := db.nextProjectId;
            && r.status == OK
            && id !in db.projects
            && r.db.projects == db.projects[id := Project(req.form["name"],
                                  Strip(FieldOr(req.form, "description", "")), req.user.value)]
            && r.db.memberships == db.memberships + [Membership(req.user.value, id, OWNER)]
  {
    FreshProjectId(db);
    CreateAsFreshName(db, req.user.value, req.form["name"], Strip(FieldOr(req.form, "description", "")));
  }

  /** A missing or empty description is accepted: a project may have an empty description. */
  lemma CreateWithoutDescription(db: Store, req: Request)
    requires Valid(db) && Authenticated(db, req) && req.verb == "POST" && Filled(Field(req.form, "name"))
    requires OwnedNamed(db.projects, req.form["name"], req.user.value) == {}
    requires "description" !in req.form
    ensures ProjectCreate(db, req).status == OK
    ensures ProjectCreate(db, req).db.projects[db.nextProjectId].description == ""
  {
    CreateWithFreshName(db, req);
  }

  /**
    With a name `u` already used on project `older`, the lookup returns an
    older project, so the new project gets no membership at all; if `u` is
    already a member of every project of that name, the grant breaks
    `unique_together`.
   */
  lemma CreateAsReusedName(db: Store, u: UserId, name: string, description: string, older: ProjectId)
    requires older < db.nextProjectId
    requires forall i :: 0 <= i < |db.memberships| ==> db.memberships[i].project != db.nextProjectId
    requires older in OwnedNamed(db.projects, name, u)
    ensures var r := CreateAs(db, u, name, description);
            && (forall i :: 0 <= i < |r.db.memberships| ==> r.db.memberships[i].project != db.nextProjectId)
            && ((forall q :: q in OwnedNamed(db.projects, name, u) ==> HasMembership(db.memberships, u, q))
                ==> r.status == SERVER_ERROR)
  {
    var id := db.nextProjectId;
    var ms := db.memberships;
    var db1 := InsertProject(db, Project(name, description, u));
    assert older in OwnedNamed(db1.projects, name, u);
    var t := CreateLookup(db1, name, u, id);
    assert t <= older < id;
    assert t in OwnedNamed(db.projects, name, u);
    var r := CreateAs(db, u, name, description);
    assert r.db.memberships == ms || r.db.memberships == ms + [Membership(u, t, OWNER)];
  }

  /**
    When the least project of the reused name is one the requester is not a
    member of, the create answers 200 and the `'owner'` row lands on that
    older project: the new project is stored ownerless and nothing reports it.
    The 500 arises exactly when that older project already has the
    requester's row.
   */
  lemma CreateAsReusedNameSilent(db: Store, u: UserId, name: string, description: string, older: ProjectId)
    requires older < db.nextProjectId
    requires older in OwnedNamed(db.projects, name, u)
    requires forall q :: q in OwnedNamed(db.projects, name, u) ==> older <= q
    ensures var r := CreateAs(db, u, name, description);
            && (r.status == OK <==> UserExists(db, u) && !HasMembership(db.memberships, u, older))
            && (r.status == OK ==> r.db.memberships == db.memberships + [Membership(u, older, OWNER)])
  {
    var id := db.nextProjectId;
    var db1 := InsertProject(db, Project(name, description, u));
    assert older in OwnedNamed(db1.projects, name, u);
    var t := CreateLookup(db1, name, u, id);
    assert t in OwnedNamed(db.projects, name, u);
    assert t == older;
    if UserExists(db, u) {
      UserStillExists(db, db1, u);
    }
    if UserExists(db1, u) {
      assert UserExists(db, u);
    }
  }

  /**
    The lookup picks an older project of the same name: no membership of
    anyone ever names the new project. If the requester already has a membership on the
    older project the insert breaks `unique_together` and the request fails
    with 500 after the project was stored.
   */
  lemma CreateWithReusedName(db: Store, req: Request, older: ProjectId)
    requires Valid(db) && Authenticated(db, req) && req.verb == "POST" && Filled(Field(req.form, "name"))
    requires older in OwnedNamed(db.projects, req.form["name"], req.user.value)
    ensures var r := ProjectCreate(db, req); var id := db.nextProjectId;
            && id in r.db.projects && r.db.projects[id].owner == req.user.value
            && (forall i :: 0 <= i < |r.db.memberships| ==> r.db.memberships[i].project != id)
            && ((forall q :: q in OwnedNamed(db.projects, req.form["name"], req.user.value)
                   ==> HasMembership(db.memberships, req.user.value, q))
                ==> r.status == SERVER_ERROR)
  {
    FreshProjectId(db);
    CreateAsReusedName(db, req.user.value, req.form["name"], Strip(FieldOr(req.form, "description", "")), older);
  }

  /**
    The evidently intended creation: the owner membership is attached to the
    project just inserted, by its id.
   */
  function ProjectCreateFixed(db: Store, req: Request): (r: Outcome)
    ensures r.status != OK ==> r.db == db
    ensures r.status == BAD_REQUEST <==>
              Authenticated(db, req) && req.verb == "POST" && !Filled(Field(req.form, "name"))
    ensures r.status == OK ==>
              && Authenticated(db, req) && req.verb == "POST" && Filled(Field(req.form, "name"))
              && r.db.projects == db.projects[db.nextProjectId := Project(req.form["name"],
                                    Strip(FieldOr(req.form, "description", "")), req.user.value)]
              && r.db.memberships == db.memberships + [Membership(req.user.value, db.nextProjectId, OWNER)]
              && r.db.users == db.users && r.db.comments == db.comments
    ensures Authenticated(db, req) && req.verb == "POST" && Filled(Field(req.form, "name")) ==>
              r == CreateFixedAs(db, req.user.value, req.form["name"], Strip(FieldOr(req.form, "description", "")))
    ensures Valid(db) ==> Valid(r.db)
  {
    if !Authenticated(db, req) then Outcome(FOUND, db)
    else if req.verb != "POST" then Outcome(METHOD_NOT_ALLOWED, db)
    else
      var name := Field(req.form, "name");
      var description := Strip(FieldOr(req.form, "description", ""));
      if !Filled(name) then Outcome(BAD_REQUEST, db)
      else CreateFixedAs(db, req.user.value, name.value, description)
  }

  /**
    The corrected body: grant `u` ownership of the id just inserted. In a
    valid store with an existing requester the grant cannot fail
    (`FixedCreateAlwaysGrantsOwner`); the failure branch, unreachable there,
    leaves the store as it was, as the corrected handler would inside a
    transaction.
   */
  function CreateFixedAs(db: Store, u: UserId, name: string, description: string): (r: Outcome)
    ensures r.status in {OK, SERVER_ERROR}
    ensures r.status == OK <==>
              UserExists(db, u) && !HasMembership(db.memberships, u, db.nextProjectId)
    ensures r.status != OK ==> r.db == db
    ensures r.status == OK ==>
              && r.db.projects == db.projects[db.nextProjectId := Project(name, description, u)]
              && r.db.memberships == db.memberships + [Membership(u, db.nextProjectId, OWNER)]
              && r.db.users == db.users && r.db.comments == db.comments
              && r.db.nextProjectId == db.nextProjectId + 1
    ensures Valid(db) ==> Valid(r.db)
  {
    var id := db.nextProjectId;
    var db1 := InsertProject(db, Project(name, description, u));
    match InsertMembership(db1, Membership(u, id, OWNER))
    case None => Outcome(SERVER_ERROR, db)
    case Some(db2) => Outcome(OK, db2)
  }

  /** In every valid store the corrected creation succeeds whenever a name is given, reused or not. */
  lemma FixedCreateAlwaysGrantsOwner(db: Store, req: Request)
    requires Valid(db) && Authenticated(db, req) && req.verb == "POST" && Filled(Field(req.form, "name"))
    ensures ProjectCreateFixed(db, req).status == OK
  {
    FreshProjectId(db);
    assert !HasMembership(db.memberships, req.user.value, db.nextProjectId);
  }

  // --------------------------------------------------------------- deletion

  /**
    `project_delete`: only the owner named by the project's foreign key deletes
    (with cascade); anyone else gets the same 200 redirect and no change.
   */
  function ProjectDelete(db: Store, req: Request, pk: ProjectId): (r: Outcome)
    ensures !Authenticated(db, req) ==> r == Outcome(FOUND, db)
    ensures Authenticated(db, req) && req.verb != "POST" ==> r == Outcome(METHOD_NOT_ALLOWED, db)
    ensures Authenticated(db, req) && req.verb == "POST" ==> r.status == OK
    ensures r.db != db ==> pk in db.projects && db.projects[pk].owner == req.user.value
    ensures Authenticated(db, req) && req.verb == "POST" && pk in db.projects && db.projects[pk].owner == req.user.value
            ==> r.db == DeleteProject(db, pk)
    ensures Valid(db) ==> Valid(r.db)
  {
    if !Authenticated(db, req) then Outcome(FOUND, db)
    else if req.verb != "POST" then Outcome(METHOD_NOT_ALLOWED, db)
    else if pk in db.projects && db.projects[pk].owner == req.user.value then Outcome(OK, DeleteProject(db, pk))
    else Outcome(OK, db)
  }

  /**
    After a request to delete, the project is gone exactly when the requester
    owned it through the foreign key; a membership role (even `'owner'`)
    does not count.
   */
  lemma DeleteOnlyByForeignKeyOwner(db: Store, req: Request, pk: ProjectId)
    requires Authenticated(db, req) && req.verb == "POST" && pk in db.projects
    ensures var r := ProjectDelete(db, req, pk);
            && r.status == OK
            && (pk !in r.db.projects <==> db.projects[pk].owner == req.user.value)
            && (pk !in r.db.projects ==>
                  (forall m :: m in r.db.memberships <==> m in db.memberships && m.project != pk)
                  && (forall c :: c in r.db.comments <==> c in db.comments && c.project != pk))
  {
  }

  // ----------------------------------------------------------------- update

  /** The membership rows `get_object_or_404` joins on: the user's owner/editor rows for an existing project. */
  function EditGrants(db: Store, u: UserId, pk: ProjectId): (r: seq<Membership>)
    ensures forall m :: m in r <==>
              pk in db.projects && m in db.memberships && m.user == u && m.project == pk && m.role in {OWNER, EDITOR}
  {
    if pk in db.projects
    then Filter(db.memberships, (m: Membership) => m.user == u && m.project == pk && m.role in {OWNER, EDITOR})
    else []
  }

  /** With unique pairs the join yields at most one row, so the `get` never sees two objects. */
  lemma EditGrantsAtMostOne(db: Store, u: UserId, pk: ProjectId)
    requires UniquePairs(db.memberships)
    ensures |EditGrants(db, u, pk)| <= 1
    ensures |EditGrants(db, u, pk)| == 1 <==>
              pk in db.projects && (Membership(u, pk, OWNER) in db.memberships || Membership(u, pk, EDITOR) in db.memberships)
  {
    var f := (m: Membership) => m.user == u && m.project == pk && m.role in {OWNER, EDITOR};
    if pk in db.projects {
      var g := Filter(db.memberships, f);
      OnePairAtMostOneRow(db.memberships, f, u, pk);
      if Membership(u, pk, OWNER) in db.memberships {
        assert Membership(u, pk, OWNER) in g;
      }
      if Membership(u, pk, EDITOR) in db.memberships {
        assert Membership(u, pk, EDITOR) in g;
      }
      if |g| == 1 {
        assert g[0] in g;
      }
    }
  }

  /**
    `project_update`: `get_object_or_404` over the join of the project with the
    requester's owner/editor memberships (404 when there is none, and the
    `get` would raise on two), then GET renders the form and POST sets the
    name and the stripped description.
   */
  function ProjectUpdate(db: Store, req: Request, pk: ProjectId): (r: Outcome)
    ensures !Authenticated(db, req) ==> r == Outcome(FOUND, db)
    ensures Authenticated(db, req) && req.verb !in {"GET", "POST"} ==> r == Outcome(METHOD_NOT_ALLOWED, db)
    ensures r.status != OK ==> r.db == db
    ensures r.status in {OK, BAD_REQUEST} ==>
              Authenticated(db, req) && |EditGrants(db, req.user.value, pk)| == 1
    ensures r.status == BAD_REQUEST <==>
              Authenticated(db, req) && req.verb == "POST" && |EditGrants(db, req.user.value, pk)| == 1
              && !Filled(Field(req.form, "name"))
    ensures r.status == OK && req.verb == "POST" ==>
              r.db == db.(projects := db.projects[pk := db.projects[pk].(name := req.form["name"],
                            description := Strip(FieldOr(req.form, "description", "")))])
    ensures r.status == OK && req.verb == "GET" ==> r.db == db
    ensures r.status == NOT_FOUND <==>
              Authenticated(db, req) && req.verb in {"GET", "POST"} && |EditGrants(db, req.user.value, pk)| == 0
    ensures r.status == SERVER_ERROR <==>
              Authenticated(db, req) && req.verb in {"GET", "POST"} && |EditGrants(db, req.user.value, pk)| > 1
    ensures (Authenticated(db, req) && |EditGrants(db, req.user.value, pk)| == 1
             && (req.verb == "GET" || (req.verb == "POST" && Filled(Field(req.form, "name")))))
            ==> r.status == OK
    ensures Valid(db) ==> Valid(r.db)
  {
    if !Authenticated(db, req) then Outcome(FOUND, db)
    else if req.verb !in {"GET", "POST"} then Outcome(METHOD_NOT_ALLOWED, db)
    else
      var grants := EditGrants(db, req.user.value, pk);
      if |grants| == 0 then Outcome(NOT_FOUND, db)
      else if |grants| > 1 then Outcome(SERVER_ERROR, db)
      else if req.verb == "GET" then Outcome(OK, db)
      else
        var name := Field(req.form, "name");
        var description := Strip(FieldOr(req.form, "description", ""));
        if !Filled(name) then Outcome(BAD_REQUEST, db)
        else
          assert grants[0] in grants;
          Outcome(OK, SaveProject(db, pk, name.value, description))
  }

  /**
    In a valid store the update proceeds exactly for an owner or editor
    membership (never 500): a writer's GET and filled POST are answered 200,
    and anyone else gets 404 with nothing changed.
   */
  lemma UpdateGate(db: Store, req: Request, pk: ProjectId)
    requires Valid(db) && Authenticated(db, req) && req.verb in {"GET", "POST"}
    ensures var r := ProjectUpdate(db, req, pk); var u := req.user.value;
            var writer := pk in db.projects
                          && (Membership(u, pk, OWNER) in db.memberships || Membership(u, pk, EDITOR) in db.memberships);
            && r.status != SERVER_ERROR
            && (r.status == NOT_FOUND <==> !writer)
            && (!writer ==> r.db == db)
            && (writer && (req.verb == "GET" || Filled(Field(req.form, "name"))) ==> r.status == OK)
  {
    EditGrantsAtMostOne(db, req.user.value, pk);
  }

  // ------------------------------------------------------------- add member

  /**
    Every check `project_add_member` makes on a POST passes: the requester is
    the foreign-key owner and holds an `'owner'` membership, both fields are
    filled, and the target id parses, names an existing user and is not yet a
    member of the project.
   */
  predicate AddMemberAllowed(db: Store, u: UserId, form: map<string, string>, pk: ProjectId)
  {
    && pk in db.projects && db.projects[pk].owner == u
    && Filled(Field(form, "user_id")) && Filled(Field(form, "role"))
    && Membership(u, pk, OWNER) in db.memberships
    && ParseId(form["user_id"]).Some?
    && UserExists(db, ParseId(form["user_id"]).value)
    && !HasMembership(db.memberships, ParseId(form["user_id"]).value, pk)
  }

  /**
    `project_add_member`: 404 unless the requester is the project's
    foreign-key owner; GET renders the form; POST needs both fields (400),
    an `'owner'` membership of the requester (403), a target who is not yet a
    member (400), and a target id that parses and exists (500 otherwise, from
    the failing query or insert). Only then is one membership appended, with
    the posted role string as it is.
   */
  function ProjectAddMember(db: Store, req: Request, pk: ProjectId): (r: Outcome)
    ensures !Authenticated(db, req) ==> r == Outcome(FOUND, db)
    ensures Authenticated(db, req) && req.verb !in {"GET", "POST"} ==> r == Outcome(METHOD_NOT_ALLOWED, db)
    ensures r.status != OK ==> r.db == db
    ensures r.status == OK ==> pk in db.projects && db.projects[pk].owner == req.user.value
    ensures r.status == OK && req.verb == "POST" ==>
              && Membership(req.user.value, pk, OWNER) in db.memberships
              && "user_id" in req.form && "role" in req.form
              && ParseId(req.form["user_id"]).Some?
              && var target := ParseId(req.form["user_id"]).value;
                 && !HasMembership(db.memberships, target, pk)
                 && UserExists(db, target)
                 && r.db == db.(memberships := db.memberships + [Membership(target, pk, req.form["role"])])
    ensures Authenticated(db, req) && req.verb == "GET" ==> r.db == db
    ensures Authenticated(db, req) && req.verb == "GET" ==>
              r.status == (if pk in db.projects && db.projects[pk].owner == req.user.value then OK else NOT_FOUND)
    ensures Authenticated(db, req) && req.verb == "POST" ==>
              (r.status == OK <==> AddMemberAllowed(db, req.user.value, req.form, pk))
    ensures Authenticated(db, req) && req.verb == "POST" && AddMemberAllowed(db, req.user.value, req.form, pk) ==>
              r == Outcome(OK, db.(memberships := db.memberships
                                     + [Membership(ParseId(req.form["user_id"]).value, pk, req.form["role"])]))
    ensures Valid(db) ==> Valid(r.db)
  {
    if !Authenticated(db, req) then Outcome(FOUND, db)
    else if req.verb !in {"GET", "POST"} then Outcome(METHOD_NOT_ALLOWED, db)
    else
      var u := req.user.value;
      if !(pk in db.projects && db.projects[pk].owner == u) then Outcome(NOT_FOUND, db)
      else if req.verb == "GET" then Outcome(OK, db)
      else
        var userField := Field(req.form, "user_id");
        var role := Field(req.form, "role");
        if !Filled(userField) || !Filled(role) then Outcome(BAD_REQUEST, db)
        else if Membership(u, pk, OWNER) !in db.memberships then Outcome(FORBIDDEN, db)
        else
          match ParseId(userField.value)
          case None => Outcome(SERVER_ERROR, db)
          case Some(target) =>
            if HasMembership(db.memberships, target, pk) then Outcome(BAD_REQUEST, db)
            else
              match InsertMembership(db, Membership(target, pk, role.value))
              case None => Outcome(SERVER_ERROR, db)
              case Some(db') => Outcome(OK, db')
  }

  /**
    The checks apply in source order: the foreign-key owner test (404) before
    the form fields (400) before the owner membership (403) before the
    duplicate-member test (400).
   */
  lemma AddMemberCheckOrder(db: Store, req: Request, pk: ProjectId)
    requires Authenticated(db, req) && req.verb == "POST"
    ensures var r := ProjectAddMember(db, req, pk); var u := req.user.value;
            var fkOwner := pk in db.projects && db.projects[pk].owner == u;
            var fields := Filled(Field(req.form, "user_id")) && Filled(Field(req.form, "role"));
            && (!fkOwner ==> r.status == NOT_FOUND)
            && (fkOwner && !fields ==> r.status == BAD_REQUEST)
            && (fkOwner && fields && Membership(u, pk, OWNER) !in db.memberships ==> r.status == FORBIDDEN)
            && (fkOwner && fields && Membership(u, pk, OWNER) in db.memberships
                && ParseId(req.form["user_id"]).Some?
                && HasMembership(db.memberships, ParseId(req.form["user_id"]).value, pk)
                ==> r.status == BAD_REQUEST)
            && (fkOwner && fields && Membership(u, pk, OWNER) in db.memberships
                && ParseId(req.form["user_id"]).None?
                ==> r.status == SERVER_ERROR)
            && (fkOwner && fields && Membership(u, pk, OWNER) in db.memberships
                && ParseId(req.form["user_id"]).Some?
                && !HasMembership(db.memberships, ParseId(req.form["user_id"]).value, pk)
                && !UserExists(db, ParseId(req.form["user_id"]).value)
                ==> r.status == SERVER_ERROR)
  {
  }

  /**
    Adding a member never modifies or removes an existing membership: the old
    table is a prefix of the new one, and at most one row is new.
   */
  lemma AddMemberOnlyAppends(db: Store, req: Request, pk: ProjectId)
    ensures var r := ProjectAddMember(db, req, pk);
            && |db.memberships| <= |r.db.memberships| <= |db.memberships| + 1
            && r.db.memberships[..|db.memberships|] == db.memberships
            && r.db.projects == db.projects && r.db.users == db.users && r.db.comments == db.comments
  {
  }

  /**
    The posted role is stored verbatim, so adding a member can take a store
    whose roles are all declared choices to one where they are not.
   */
  lemma AddMemberStoresAnyRole(db: Store, req: Request, pk: ProjectId)
    requires RolesDeclared(db.memberships)
    requires ProjectAddMember(db, req, pk).status == OK && req.verb == "POST"
    ensures RolesDeclared(ProjectAddMember(db, req, pk).db.memberships) <==> req.form["role"] in ROLE_CHOICES
  {
    var r := ProjectAddMember(db, req, pk);
    var m := r.db.memberships[|r.db.memberships| - 1];
    assert m in r.db.memberships;
  }

  // ---------------------------------------------------------------- comment

  /**
    `project_comment_add`: 404 for an unknown project, 400 when the stripped
    text is empty, otherwise one comment by the requester with the stripped
    text is appended. No membership is consulted.
   */
  function ProjectCommentAdd(db: Store, req: Request, pk: ProjectId): (r: Outcome)
    ensures !Authenticated(db, req) ==> r == Outcome(FOUND, db)
    ensures Authenticated(db, req) && req.verb != "POST" ==> r == Outcome(METHOD_NOT_ALLOWED, db)
    ensures r.status in {FOUND, METHOD_NOT_ALLOWED, NOT_FOUND, BAD_REQUEST, OK}
    ensures r.status != OK ==> r.db == db
    ensures r.status == NOT_FOUND <==> Authenticated(db, req) && req.verb == "POST" && pk !in db.projects
    ensures r.status == BAD_REQUEST <==>
              Authenticated(db, req) && req.verb == "POST" && pk in db.projects
              && AllSpace(FieldOr(req.form, "text", ""))
    ensures r.status == OK ==>
              && r.db.comments == db.comments + [Comment(pk, req.user.value, Strip(FieldOr(req.form, "text", "")), db.clock)]
              && Strip(FieldOr(req.form, "text", "")) != ""
              && r.db.users == db.users && r.db.projects == db.projects && r.db.memberships == db.memberships
    ensures Authenticated(db, req) && req.verb == "POST" && pk in db.projects
            && !AllSpace(FieldOr(req.form, "text", "")) ==>
              r == Outcome(OK, db.(comments := db.comments + [Comment(pk, req.user.value,
                                                                      Strip(FieldOr(req.form, "text", "")), db.clock)],
                                   clock := db.clock + 1))
    ensures Valid(db) ==> Valid(r.db)
  {
    if !Authenticated(db, req) then Outcome(FOUND, db)
    else if req.verb != "POST" then Outcome(METHOD_NOT_ALLOWED, db)
    else if pk !in db.projects then Outcome(NOT_FOUND, db)
    else
      var text := Strip(FieldOr(req.form, "text", ""));
      StripEmptyIffAllSpace(FieldOr(req.form, "text", ""));
      if text == "" then Outcome(BAD_REQUEST, db)
      else
        Outcome(OK, AddComment(db, pk, req.user.value, text))
  }

  /** The outcome does not depend on the memberships at all: the role check is disabled. */
  lemma CommentIgnoresMemberships(db: Store, req: Request, pk: ProjectId, ms: seq<Membership>)
    ensures ProjectCommentAdd(db.(memberships := ms), req, pk).status == ProjectCommentAdd(db, req, pk).status
  {
    assert Authenticated(db.(memberships := ms), req) == Authenticated(db, req);
  }

  /** A new comment heads its project's newest-first listing; other projects' listings are unchanged. */
  lemma CommentHeadsListing(db: Store, req: Request, pk: ProjectId, q: ProjectId)
    requires ProjectCommentAdd(db, req, pk).status == OK
    ensures var r := ProjectCommentAdd(db, req, pk);
            && CommentsNewestFirst(r.db, pk) == [r.db.comments[|r.db.comments| - 1]] + CommentsNewestFirst(db, pk)
            && (q != pk ==> CommentsNewestFirst(r.db, q) == CommentsNewestFirst(db, q))
  {
    var r := ProjectCommentAdd(db, req, pk);
    var c := Comment(pk, req.user.value, Strip(FieldOr(req.form, "text", "")), db.clock);
    assert r.db.comments == db.comments + [c];
    ListingAfterAppend(db.comments, c, pk);
    ListingAfterAppend(db.comments, c, q);
    assert CommentsNewestFirst(r.db, pk) == Reverse(Filter(r.db.comments, OnProject(pk)));
    assert CommentsNewestFirst(db, pk) == Reverse(Filter(db.comments, OnProject(pk)));
    assert CommentsNewestFirst(r.db, q) == Reverse(Filter(r.db.comments, OnProject(q)));
    assert CommentsNewestFirst(db, q) == Reverse(Filter(db.comments, OnProject(q)));
  }

  /** Appending one comment puts it at the head of its own project's listing and leaves every other listing alone. */
  lemma ListingAfterAppend(cs: seq<Comment>, c: Comment, q: ProjectId)
    ensures c.project == q ==> Reverse(Filter(cs + [c], OnProject(q))) == [c] + Reverse(Filter(cs, OnProject(q)))
    ensures c.project != q ==> Reverse(Filter(cs + [c], OnProject(q))) == Reverse(Filter(cs, OnProject(q)))
  {
    var f := OnProject(q);
    var mine := Filter(cs, f);
    FilterSnoc(cs, c, f);
    if c.project == q {
      assert f(c);
      ReverseSnoc(mine, c);
    } else {
      assert !f(c);
      assert Filter(cs + [c], f) == mine;
    }
  }
}

=== FILE: pystr.dfy ===
/**
  The pieces of Python string semantics the handlers rely on: truthiness of a
  form value (`not x`), `str.strip()` with no argument, and the `int(...)`
  conversion Django applies to a posted primary key.
 */
module PyStr {
  import opened Seqs

  /** `str.isspace()` for one character: the characters Python treats as whitespace. */
  predicate IsSpace(c: char)
  {
    var n := c as int;
    (0x09 <= n <= 0x0D) || (0x1C <= n <= 0x20) || n == 0x85 || n == 0xA0 || n == 0x1680
    || (0x2000 <= n <= 0x200A) || n == 0x2028 || n == 0x2029 || n == 0x202F || n == 0x205F
    || n == 0x3000
  }

  ghost predicate AllSpace(s: string)
  {
    forall i :: 0 <= i < |s| ==> IsSpace(s[i])
  }

  /** `s` with its longest whitespace prefix removed. */
  function LStrip(s: string): (r: string)
    ensures |r| <= |s| && r == s[|s| - |r|..]
    ensures AllSpace(s[..|s| - |r|])
    ensures r == [] || !IsSpace(r[0])
    ensures AllSpace(s) ==> r == []
  {
    if s != [] && IsSpace(s[0]) then
      var r := LStrip(s[1..]);
      SpaceHeadDropped(s, r);
      r
    else
      assert AllSpace(s[..0]);
      s
  }

  /** What `LStrip` promises of the tail carries over to `s` when its head is whitespace. */
  lemma SpaceHeadDropped(s: string, r: string)
    requires s != [] && IsSpace(s[0])
    requires |r| <= |s| - 1 && r == s[1..][|s| - 1 - |r|..] && AllSpace(s[1..][..|s| - 1 - |r|])
    requires AllSpace(s[1..]) ==> r == []
    ensures r == s[|s| - |r|..] && AllSpace(s[..|s| - |r|])
    ensures AllSpace(s) ==> r == []
  {
    var t := s[1..];
    assert t[|t| - |r|..] == s[|s| - |r|..];
    var front := s[..|s| - |r|];
    forall k | 0 <= k < |front| ensures IsSpace(front[k]) {
      if k > 0 { assert front[k] == t[..|t| - |r|][k - 1]; }
    }
    assert AllSpace(s) ==> AllSpace(t) by {
      assert forall k :: 0 <= k < |t| ==> t[k] == s[k + 1];
    }
  }

  /** `s` with its longest whitespace suffix removed. */
  function RStrip(s: string): (r: string)
    ensures |r| <= |s| && r == s[..|r|]
    ensures AllSpace(s[|r|..])
    ensures r == [] || !IsSpace(r[|r| - 1])
  {
    if s != [] && IsSpace(s[|s| - 1]) then
      var r := RStrip(s[..|s| - 1]);
      SpaceTailDropped(s, r);
      r
    else
      assert AllSpace(s[|s|..]);
      s
  }

  /** What `RStrip` promises of the front carries over to `s` when its last character is whitespace. */
  lemma SpaceTailDropped(s: string, r: string)
    requires s != [] && IsSpace(s[|s| - 1])
    requires |r| <= |s| - 1 && r == s[..|s| - 1][..|r|] && AllSpace(s[..|s| - 1][|r|..])
    ensures r == s[..|r|] && AllSpace(s[|r|..])
  {
    var t := s[..|s| - 1];
    assert t[..|r|] == s[..|r|];
    var back := s[|r|..];
    forall k | 0 <= k < |back| ensures IsSpace(back[k]) {
      if k < |back| - 1 { assert back[k] == t[|r|..][k]; }
    }
  }

  /** Python's `s.strip()`: both whitespace ends removed. */
  function Strip(s: string): (r: string)
    ensures |r| <= |s|
    ensures r == [] || (!IsSpace(r[0]) && !IsSpace(r[|r| - 1]))
  {
    RStrip(LStrip(s))
  }

  /** `r` sits in `s` at offset `i`, with only whitespace before and after it. */
  ghost predicate TrimmedAt(s: string, r: string, i: nat)
  {
    i + |r| <= |s| && s[i..i + |r|] == r && AllSpace(s[..i]) && AllSpace(s[i + |r|..])
  }

  /** The stripped text is a contiguous piece of the input with only whitespace around it. */
  lemma StripIsTrimmedSlice(s: string)
    ensures exists i :: TrimmedAt(s, Strip(s), i)
  {
    var r := Strip(s);
    var l := LStrip(s);
    assert r == RStrip(l);
    TrimmedTwice(s, l, r);
  }

  /**
    A core cut from `s` in two steps, a whitespace prefix and then a
    whitespace suffix, is one slice of `s` with whitespace on either side.
   */
  lemma TrimmedTwice(s: string, l: string, r: string)
    requires |l| <= |s| && l == s[|s| - |l|..] && AllSpace(s[..|s| - |l|])
    requires |r| <= |l| && r == l[..|r|] && AllSpace(l[|r|..])
    ensures TrimmedAt(s, r, |s| - |l|)
  {
    var i := |s| - |l|;
    assert s[i..][..|r|] == s[i..i + |r|];
    assert s[i..][|r|..] == s[i + |r|..];
  }

  /** `not s.strip()` holds exactly for inputs made only of whitespace. */
  lemma {:induction false} StripEmptyIffAllSpace(s: string)
    ensures Strip(s) == [] <==> AllSpace(s)
  {
    var l := LStrip(s);
    if Strip(s) == [] {
      assert AllSpace(l[0..]);
      assert l == [];
      assert s[..|s|] == s;
    }
  }

  /** Python truthiness of an optional form value: present and not the empty string. */
  predicate Filled(v: Option<string>)
  {
    v.Some? && v.value != ""
  }

  predicate IsDigit(c: char)
  {
    48 <= c as int <= 57
  }

  /** The number a string of decimal digits denotes. */
  function DigitsValue(s: string): nat
    requires forall i :: 0 <= i < |s| ==> IsDigit(s[i])
  {
    if s == [] then 0
    else
      assert IsDigit(s[|s| - 1]);
      10 * DigitsValue(s[..|s| - 1]) + (s[|s| - 1] as int - 48) as nat
  }

  /** `int(s)` for a primary key: defined exactly on non-empty strings of ASCII digits. */
  function ParseId(s: string): (r: Option<nat>)
    ensures r.Some? <==> s != [] && forall i :: 0 <= i < |s| ==> IsDigit(s[i])
  {
    if s != [] && forall i :: 0 <= i < |s| ==> IsDigit(s[i]) then Some(DigitsValue(s)) else None
  }

  /** `str(n)`: how an id is written into a form field. */
  function ShowId(n: nat): (r: string)
    ensures r != [] && forall i :: 0 <= i < |r| ==> IsDigit(r[i])
    decreases n
  {
    var d := [(48 + n % 10) as char];
    if n < 10 then d else ShowId(n / 10) + d
  }

  /** An id written into the add-member form by `str` is read back unchanged by `int`. */
  lemma {:induction false} ParseShowId(n: nat)
    ensures ParseId(ShowId(n)) == Some(n)
    decreases n
  {
    var s := ShowId(n);
    if n < 10 {
      assert DigitsValue(s) == 10 * DigitsValue([]) + n;
    } else {
      ParseShowId(n / 10);
      assert s[..|s| - 1] == ShowId(n / 10);
      assert DigitsValue(s) == 10 * (n / 10) + n % 10;
    }
  }
}

=== FILE: scenarios.dfy ===
/**
  Concrete runs of the handlers on the fixtures of the projects test suite
  (three users `owner`, `editor` and `reader` with ids 1, 2 and 3). Each
  lemma states what the code does on that fixture; where the test suite
  expects something else, the lemma's comment says so.
 */
module Scenarios {
  import opened Seqs
  import opened PyStr
  import opened Models
  import opened Http
  import opened Permissions
  import opened ProjectViews

  const ALICE: UserId := 1
  const BOB: UserId := 2
  const CAROL: UserId := 3

  /** The users the test suite's `setUp` creates: `owner`, `editor` and `reader`. */
  function Fixture(projects: map<ProjectId, Project>, ms: seq<Membership>, nextProject: nat): Store
  {
    Store(map["owner" := Account(ALICE, "", "ownerpass"),
              "editor" := Account(BOB, "", "editorpass"),
              "reader" := Account(CAROL, "", "readerpass")],
          projects, ms, [], 4, nextProject, 0)
  }

  lemma FixtureUsersExist(projects: map<ProjectId, Project>, ms: seq<Membership>, nextProject: nat)
    ensures var db := Fixture(projects, ms, nextProject);
            UserExists(db, ALICE) && UserExists(db, BOB) && UserExists(db, CAROL)
  {
    var db := Fixture(projects, ms, nextProject);
    assert db.users["owner"].id == ALICE && db.users["editor"].id == BOB && db.users["reader"].id == CAROL;
  }

  function Post(u: UserId, form: map<string, string>): Request
  {
    Request("POST", Some(u), form)
  }

  /**
    Creating "My Project" stores the membership role as lowercase `'owner'`;
    the test suite expects `'Owner'`.
   */
  lemma CreateStoresLowercaseOwner()
    ensures var db := Fixture(map[], [], 1);
            var r := ProjectCreate(db, Post(ALICE, map["name" := "My Project", "description" := "Some description"]));
            && r.status == OK
            && r.db.memberships == [Membership(ALICE, 1, OWNER)]
            && r.db.memberships[0].role != "Owner"
  {
    var db := Fixture(map[], [], 1);
    FixtureUsersExist(map[], [], 1);
    var req := Post(ALICE, map["name" := "My Project", "description" := "Some description"]);
    var d := Strip(FieldOr(req.form, "description", ""));
    assert Authenticated(db, req) && Filled(Field(req.form, "name"));
    CreateAsFreshName(db, ALICE, "My Project", d);
    assert ProjectCreate(db, req) == CreateAs(db, ALICE, "My Project", d);
  }

  /**
    The project the add-member and update tests build: owned by `owner`, with
    an `'Owner'` row. The add-member test names it "TestPro" ("Desc"), the
    update test "Proj1" ("Old desc").
   */
  function MisCasedOwnerStore(name: string, description: string): Store
  {
    Fixture(map[1 := Project(name, description, ALICE)], [Membership(ALICE, 1, "Owner")], 2)
  }

  /**
    With the test's `'Owner'` membership, adding `editor` is refused with 403:
    the code looks for a lowercase `'owner'` row. The test expects 200 or 201.
   */
  lemma AddMemberRefusedForMisCasedOwner()
    ensures var db := MisCasedOwnerStore("TestPro", "Desc");
            var r := ProjectAddMember(db, Post(ALICE, map["user_id" := ShowId(BOB), "role" := "editor"]), 1);
            && r.status == FORBIDDEN
            && r.db == db
            && !HasMembership(r.db.memberships, BOB, 1)
  {
    FixtureUsersExist(map[1 := Project("TestPro", "Desc", ALICE)], [Membership(ALICE, 1, "Owner")], 2);
    var db := MisCasedOwnerStore("TestPro", "Desc");
    assert Membership(ALICE, 1, OWNER) !in db.memberships;
  }

  /**
    With the test's `'Owner'` membership, the foreign-key owner's update is
    answered 404 and the description stays as it was. The test expects 200.
   */
  lemma UpdateRefusedForMisCasedOwner()
    ensures var db := MisCasedOwnerStore("Proj1", "Old desc");
            var r := ProjectUpdate(db, Post(ALICE, map["name" := "Proj1 updated", "description" := "New desc"]), 1);
            && r.status == NOT_FOUND
            && r.db.projects[1].description == "Old desc"
  {
    FixtureUsersExist(map[1 := Project("Proj1", "Old desc", ALICE)], [Membership(ALICE, 1, "Owner")], 2);
    var db := MisCasedOwnerStore("Proj1", "Old desc");
    EditGrantsAtMostOne(db, ALICE, 1);
  }

  /** The second project of the delete test: owned by `owner`, with `editor` an `'editor'` member. */
  function SharedStore(): Store
  {
    Fixture(map[2 := Project("SecondOne", "", ALICE)], [Membership(ALICE, 2, "Owner"), Membership(BOB, 2, EDITOR)], 3)
  }

  /**
    The editor's delete request is answered 200, like a successful one, and
    the project survives. The test expects 403 or 404.
   */
  lemma EditorDeleteAnswersOk()
    ensures var db := SharedStore();
            var r := ProjectDelete(db, Post(BOB, map[]), 2);
            && r.status == OK && r.db == db && 2 in r.db.projects
  {
    FixtureUsersExist(map[2 := Project("SecondOne", "", ALICE)], [Membership(ALICE, 2, "Owner"), Membership(BOB, 2, EDITOR)], 3);
  }

  /** The owner's delete also answers 200, and the project and its rows are gone. */
  lemma OwnerDeleteRemoves()
    ensures var db := SharedStore();
            var r := ProjectDelete(db, Post(ALICE, map[]), 2);
            && r.status == OK && 2 !in r.db.projects && r.db.memberships == []
  {
    FixtureUsersExist(map[2 := Project("SecondOne", "", ALICE)], [Membership(ALICE, 2, "Owner"), Membership(BOB, 2, EDITOR)], 3);
    var r := ProjectDelete(SharedStore(), Post(ALICE, map[]), 2);
    assert forall m :: m !in r.db.memberships;
  }

  /**
    A member whose role is not one of the three lowercase choices may read
    the project by the permission class, but the index does not list it.
   */
  lemma MisCasedMemberHiddenFromIndex()
    ensures var db := Fixture(map[1 := Project("P", "", ALICE)], [Membership(BOB, 1, "Owner")], 2);
            && IsProjectOwnerOrReadOnly(db.memberships, "GET", BOB, 1)
            && ProjectIndex(db, Request("GET", Some(BOB), map[])).Index?
            && ProjectIndex(db, Request("GET", Some(BOB), map[])).projects == {}
  {
    var db := Fixture(map[1 := Project("P", "", ALICE)], [Membership(BOB, 1, "Owner")], 2);
    FixtureUsersExist(map[1 := Project("P", "", ALICE)], [Membership(BOB, 1, "Owner")], 2);
    assert db.memberships[0].user == BOB && db.memberships[0].project == 1;
    assert VisibleProjects(db, BOB) == {};
  }

  /**
    A reader, and even a user with no membership at all, may comment: the
    handler accepts what `CanCommentOnProject` would refuse.
   */
  lemma CommentAcceptedWithoutPermission()
    ensures var db := Fixture(map[1 := Project("P", "", ALICE)], [Membership(CAROL, 1, READER)], 2);
            && !CanCommentOnProject(db.memberships, CAROL, ProjectObject(1))
            && !CanCommentOnProject(db.memberships, BOB, ProjectObject(1))
            && ProjectCommentAdd(db, Post(CAROL, map["text" := "hi"]), 1).status == OK
            && ProjectCommentAdd(db, Post(BOB, map["text" := "hi"]), 1).status == OK
  {
    var db := Fixture(map[1 := Project("P", "", ALICE)], [Membership(CAROL, 1, READER)], 2);
    FixtureUsersExist(map[1 := Project("P", "", ALICE)], [Membership(CAROL, 1, READER)], 2);
    assert db.memberships[0].user == CAROL && db.memberships[0].project == 1;
    assert RoleOn(db.memberships, CAROL, 1) == Some(READER);
    assert !HasMembership(db.memberships, BOB, 1);
    assert !IsSpace("hi"[0]);
    assert !AllSpace(FieldOr(map["text" := "hi"], "text", ""));
  }

  /**
    Creating a second project under a name the requester already used, in
    any valid store where that name is new at first: the lookup finds the
    first project, whose owner membership already exists, so the request
    fails with 500 while the new project stays stored, owned by the
    requester, and no membership of anyone names it.
   */
  lemma DuplicateNameLeavesProjectWithoutMembership(db: Store, req: Request)
    requires Valid(db) && Authenticated(db, req) && req.verb == "POST" && Filled(Field(req.form, "name"))
    requires OwnedNamed(db.projects, req.form["name"], req.user.value) == {}
    ensures var first := ProjectCreate(db, req); var second := ProjectCreate(first.db, req);
            var id := first.db.nextProjectId;
            && first.status == OK
            && second.status == SERVER_ERROR
            && id in second.db.projects && second.db.projects[id].owner == req.user.value
            && (forall i :: 0 <= i < |second.db.memberships| ==> second.db.memberships[i].project != id)
  {
    var u := req.user.value;
    var name := req.form["name"];
    var d := Strip(FieldOr(req.form, "description", ""));
    FreshProjectId(db);
    CreateTwiceSameName(db, u, name, d);
    var first := CreateAs(db, u, name, d);
    assert ProjectCreate(db, req) == first;
    assert Authenticated(first.db, req);
    assert ProjectCreate(first.db, req) == CreateAs(first.db, u, name, d);
  }

  /** Two creations under one name, at the store level: the second lookup finds the first project. */
  lemma CreateTwiceSameName(db: Store, u: UserId, name: string, d: string)
    requires UserExists(db, u) && db.nextProjectId !in db.projects
    requires forall i :: 0 <= i < |db.memberships| ==> db.memberships[i].project < db.nextProjectId
    requires OwnedNamed(db.projects, name, u) == {}
    ensures var first := CreateAs(db, u, name, d); var second := CreateAs(first.db, u, name, d);
            var id := first.db.nextProjectId;
            && first.status == OK
            && second.status == SERVER_ERROR
            && id in second.db.projects && second.db.projects[id].owner == u
            && (forall i :: 0 <= i < |second.db.memberships| ==> second.db.memberships[i].project != id)
  {
    var n := db.nextProjectId;
    CreateAsFreshName(db, u, name, d);
    var first := CreateAs(db, u, name, d);
    var ms := first.db.memberships;
    assert ms == db.memberships + [Membership(u, n, OWNER)];
    assert OwnedNamed(first.db.projects, name, u) == {n};
    assert forall i :: 0 <= i < |ms| ==> ms[i].project != n + 1 by {
      forall i | 0 <= i < |ms| ensures ms[i].project != n + 1 {
        if i < |db.memberships| { assert ms[i] == db.memberships[i]; }
      }
    }
    assert ms[|db.memberships|] == Membership(u, n, OWNER);
    assert HasMembership(ms, u, n);
    CreateAsReusedName(first.db, u, name, d, n);
  }

  /**
    The corrected creation handles the same two requests in any valid store:
    both succeed and each new project gets its own owner row.
   */
  lemma DuplicateNameFixed(db: Store, req: Request)
    requires Valid(db) && Authenticated(db, req) && req.verb == "POST" && Filled(Field(req.form, "name"))
    ensures var first := ProjectCreateFixed(db, req); var second := ProjectCreateFixed(first.db, req);
            && first.status == OK && second.status == OK
            && second.db.memberships == db.memberships + [Membership(req.user.value, db.nextProjectId, OWNER),
                                                          Membership(req.user.value, db.nextProjectId + 1, OWNER)]
  {
    var u := req.user.value;
    var name := req.form["name"];
    var d := Strip(FieldOr(req.form, "description", ""));
    FreshProjectId(db);
    CreateFixedTwice(db, u, name, d);
    var first := CreateFixedAs(db, u, name, d);
    assert ProjectCreateFixed(db, req) == first;
    assert Authenticated(first.db, req);
    assert ProjectCreateFixed(first.db, req) == CreateFixedAs(first.db, u, name, d);
  }

  /** Two corrected creations in a row, at the store level. */
  lemma CreateFixedTwice(db: Store, u: UserId, name: string, d: string)
    requires UserExists(db, u)
    requires forall i :: 0 <= i < |db.memberships| ==> db.memberships[i].project < db.nextProjectId
    ensures var first := CreateFixedAs(db, u, name, d); var second := CreateFixedAs(first.db, u, name, d);
            && first.status == OK && second.status == OK
            && second.db.memberships == db.memberships + [Membership(u, db.nextProjectId, OWNER),
                                                          Membership(u, db.nextProjectId + 1, OWNER)]
  {
    var n := db.nextProjectId;
    assert !HasMembership(db.memberships, u, n);
    var first := CreateFixedAs(db, u, name, d);
    var ms := first.db.memberships;
    assert ms == db.memberships + [Membership(u, n, OWNER)];
    assert first.db.nextProjectId == n + 1 && first.db.users == db.users;
    NoRowOnNext(db.memberships, Membership(u, n, OWNER), n);
    var second := CreateFixedAs(first.db, u, name, d);
    assert second.status == OK;
    assert second.db.memberships == ms + [Membership(u, n + 1, OWNER)];
  }

  /** Appending a row on `n` to a table whose rows all lie below `n` leaves no row on `n + 1`. */
  lemma NoRowOnNext(ms: seq<Membership>, m: Membership, n: ProjectId)
    requires forall i :: 0 <= i < |ms| ==> ms[i].project < n
    requires m.project == n
    ensures !HasMembership(ms + [m], m.user, n + 1)
  {
    var ms' := ms + [m];
    forall i | 0 <= i < |ms'| ensures ms'[i].project != n + 1 {
      if i < |ms| { assert ms'[i] == ms[i]; }
    }
  }
}

=== FILE: seqs.dfy ===
/**
  Small generic helpers shared by the model: an optional value, and the
  sequence operations the ORM queries reduce to once a table is modelled as
  the sequence of its rows in primary-key order.
 */
module Seqs {

  /** A value that may be absent (Python's `None`, Django's empty `.first()`). */
  datatype Option<+T> = None | Some(value: T)

  /** The rows of `s` satisfying `f`, in their original order (`.filter(...)`). */
  function Filter<T(!new)>(s: seq<T>, f: T -> bool): (r: seq<T>)
    ensures |r| <= |s|
    ensures forall x :: x in r <==> x in s && f(x)
  {
    if s == [] then []
    else Filter(s[..|s| - 1], f) + (if f(s[|s| - 1]) then [s[|s| - 1]] else [])
  }

  /** Filtering a table with one more row appended either appends that row or ignores it. */
  lemma FilterSnoc<T(!new)>(s: seq<T>, x: T, f: T -> bool)
    ensures Filter(s + [x], f) == Filter(s, f) + (if f(x) then [x] else [])
  {
    assert (s + [x])[..|s + [x]| - 1] == s;
  }

  /** Nothing is kept when no row satisfies the filter. */
  lemma {:induction false} FilterNone<T(!new)>(s: seq<T>, f: T -> bool)
    requires forall i :: 0 <= i < |s| ==> !f(s[i])
    ensures Filter(s, f) == []
  {
    if s != [] {
      FilterNone(s[..|s| - 1], f);
    }
  }

  /** `R` holds of every pair of rows in table order. */
  ghost predicate Pairwise<T>(s: seq<T>, R: (T, T) -> bool)
  {
    forall i, j :: 0 <= i < j < |s| ==> R(s[i], s[j])
  }

  /** Removing rows keeps every pairwise property of the rows that stay. */
  lemma {:induction false} FilterPairwise<T(!new)>(s: seq<T>, f: T -> bool, R: (T, T) -> bool)
    requires Pairwise(s, R)
    ensures Pairwise(Filter(s, f), R)
  {
    if s != [] {
      var init, last := s[..|s| - 1], s[|s| - 1];
      assert Pairwise(init, R) by {
        forall i, j | 0 <= i < j < |init| ensures R(init[i], init[j]) {
          assert init[i] == s[i] && init[j] == s[j];
        }
      }
      FilterPairwise(init, f, R);
      var fi := Filter(init, f);
      if f(last) {
        var r := fi + [last];
        forall i, j | 0 <= i < j < |r| ensures R(r[i], r[j]) {
          if j < |fi| {
            assert r[i] == fi[i] && r[j] == fi[j];
          } else {
            assert r[i] in init;
            var k :| 0 <= k < |init| && init[k] == r[i];
            assert s[k] == r[i] && s[|s| - 1] == last;
          }
        }
      }
    }
  }

  /** The sequence read back to front (`order_by('-created_at')` on rows kept in creation order). */
  function Reverse<T>(s: seq<T>): (r: seq<T>)
    ensures |r| == |s|
    ensures forall i :: 0 <= i < |s| ==> r[i] == s[|s| - 1 - i]
  {
    if s == [] then [] else [s[|s| - 1]] + Reverse(s[..|s| - 1])
  }

  lemma ReverseMembers<T>(s: seq<T>)
    ensures forall x :: x in Reverse(s) <==> x in s
  {
    var r := Reverse(s);
    forall x ensures x in r <==> x in s {
      if x in r {
        var i :| 0 <= i < |r| && r[i] == x;
        assert s[|s| - 1 - i] == x;
      }
      if x in s {
        var i :| 0 <= i < |s| && s[i] == x;
        assert r[|s| - 1 - i] == x;
      }
    }
  }

  /** Reversing a sequence ordered by `R` orders it by the converse of `R`. */
  lemma ReversePairwise<T>(s: seq<T>, R: (T, T) -> bool)
    requires Pairwise(s, R)
    ensures forall i, j :: 0 <= i < j < |Reverse(s)| ==> R(Reverse(s)[j], Reverse(s)[i])
  {
    var r := Reverse(s);
    forall i, j | 0 <= i < j < |r| ensures R(r[j], r[i]) {
      assert r[j] == s[|s| - 1 - j] && r[i] == s[|s| - 1 - i];
    }
  }

  lemma ReverseSnoc<T>(s: seq<T>, x: T)
    ensures Reverse(s + [x]) == [x] + Reverse(s)
  {
    assert (s + [x])[..|s|] == s;
  }

  /** The index of the first row satisfying `f`, if any (`.filter(...).first()` on a pk-ordered table). */
  function FirstIndex<T>(s: seq<T>, f: T -> bool): (r: Option<nat>)
    ensures r.Some? ==> r.value < |s| && f(s[r.value]) && forall j :: 0 <= j < r.value ==> !f(s[j])
    ensures r.None? ==> forall j :: 0 <= j < |s| ==> !f(s[j])
  {
    FirstIndexFrom(s, f, 0)
  }

  function FirstIndexFrom<T>(s: seq<T>, f: T -> bool, lo: nat): (r: Option<nat>)
    requires lo <= |s|
    ensures r.Some? ==> lo <= r.value < |s| && f(s[r.value]) && forall j :: lo <= j < r.value ==> !f(s[j])
    ensures r.None? ==> forall j :: lo <= j < |s| ==> !f(s[j])
    decreases |s| - lo
  {
    if lo == |s| then None
    else if f(s[lo]) then Some(lo)
    else FirstIndexFrom(s, f, lo + 1)
  }

  /** The least element of `s` in `[lo, hi)`, if any: `.first()` on an unordered queryset orders by pk. */
  function LeastIn(s: set<nat>, lo: nat, hi: nat): (r: Option<nat>)
    requires lo <= hi
    ensures r.Some? ==> lo <= r.value < hi && r.value in s && forall k :: lo <= k < r.value ==> k !in s
    ensures r.None? ==> forall k :: lo <= k < hi ==> k !in s
    decreases hi - lo
  {
    if lo == hi then None
    else if lo in s then Some(lo)
    else LeastIn(s, lo + 1, hi)
  }
}
